=== FILE: README.md ===
# WebRTC mesh negotiation, modelled in Dafny

A browser-side React component, `NegotiateConversations`, joins a video
call in which every participant connects to every other one (a mesh). Each
pairwise link is an RTCPeerConnection with two pre-negotiated data channels,
one for commands (`VIDEO_ON`, `VIDEO_OFF`) and one for negotiation. Until a
link is up, its negotiation messages (descriptions and ICE candidates) travel
through a relay WebSocket; afterwards they can travel over the negotiation
channel itself.

When a call starts, the component opens its camera, opens a MASTER socket
and, once that socket is open, fetches the open offers of the conversation.
It reduces them to one offer per device, drops its own device, and dials
each remaining offer as a SLAVE. A slave socket announces itself with an
INITIATE message. The master socket answers an INITIATE by handing itself to
a new MASTER connection for the sender and opening a fresh master socket to
keep listening. MASTER connections make the offer; SLAVE connections answer.
The component keeps a registry `connectionId -> ConnectionMeta` and a
counter of active connections. A connection that is not connected 15 seconds
after its creation is dropped. When the counter reaches zero, the call
stops and the master socket is closed.

The project has seven modules:

- `Signals` (signals.dfy): the value types. These are roles, session
  descriptions and ICE candidates as abstract values, the tagged relay
  message (which stands in for JSON), ready states and connection states.
- `Browser` (browser.dfy): small classes standing in for WebSocket,
  RTCDataChannel and RTCPeerConnection, plus the `ConnectionMeta` record.
  Each event-handler field holds a `Handler` value that names the installed
  closure and the values it captured.
- `Negotiation` (negotiation.dfy): the handlers of Negotiation.ts. This
  covers transport choice, message construction, negotiation-needed,
  incoming messages and the candidate retry queue.
- `Rtc` (rtc.dfy): record construction and handler wiring from
  RtcConnection.ts.
- `Dedup` (dedup.dfy): the offer de-duplication reduce and the filter over
  its result, from conversation.tsx. A pure reference definition
  (`Expected`) comes with its properties, and the in-place reduce is a
  method proved equal to it.
- `Conversation` (conversation.dfy): the component state as a class. It
  holds the registry, counter, offers, master socket, armed timers and media
  log, and has one method per handler or effect.
- `Handshake` (handshake.dfy): whole exchanges run through those handlers.
  One is an offer/answer between a MASTER and a SLAVE. Another is a
  candidate that arrives before the offer. Two more drive the component: a
  call start that opens the master socket, and an offer fetched from another
  device that is dialled through the effect on offers, then goes unanswered
  until its timeout ends the call.

Each async handler runs as one atomic step. What the browser decides is
passed in as a parameter. That covers whether setRemoteDescription accepts a
description, the SDP that createOffer or createAnswer yields (or `None` on
failure), whether addIceCandidate accepts a candidate, and whether the
camera opens at call start. A relay socket becomes OPEN only through its
explicit `Establish` step. The video store, outside the component, raises
`callInProgress` through the `StartCall` step; the component only lowers it.
Timers are
explicit steps. The connect timeout is an element of `timers`. A candidate
retry timer is an element of the peer connection's `deferred` queue, and
`RetryDeferred` is one firing. React state updates apply at once and in
order. An effect is a separate method that the runtime calls after a render
in which one of its dependencies changed.

Where the described intent and the code differ, the model follows the code:

- The de-duplication does not keep each device's newest offer. A device
  keeps its first record's `createdAt`, and each later record is compared
  against that first timestamp. The kept id is therefore that of the last
  record strictly newer than the device's first record, not necessarily the
  newest one (`Dedup.NewestNotKept`). Latest-wins holds only when a
  device's records arrive in ascending order or there are at most two
  (`Dedup.LatestWinsWhenAscending`, `Dedup.NewestOfTwoWins`).
- `makingOffer` is written but never read, so nothing prevents two
  overlapping offers. The model only proves that the flag is false after the
  handler ends. `ignoreOffer` only suppresses a log line, and no rollback or
  collision handling exists.
- The active-connection counter is not always equal to the registry size.
  Adding an existing id still increments it, and removing an absent id still
  decrements it (floored at zero). `InSync` is preserved only under the
  stated conditions.

## Model

| member | source | states |
|---|---|---|
| Dedup.FindIndex | conversation.tsx:30-32 | the index of the first record of the device, or -1 exactly when no record has that device |
| Dedup.Devices | conversation.tsx:29-41 | every device of the input appears exactly once; empty exactly when the input is empty (their order is stated by Dedup.FirstOccurrenceOrder) |
| Dedup.NewerId | conversation.tsx:33-35 | the id of the last record of the device strictly newer than the given timestamp, or the fallback when there is none |
| Dedup.Kept | conversation.tsx:33-37 | the kept record belongs to the device |
| Dedup.KeptOrigin | conversation.tsx:33-37 | the kept record has the timestamp of the device's first record and the id of a record of that device no older than the first |
| Dedup.Expected | conversation.tsx:29-41 | as many records as distinct devices, the k-th for the k-th device in order of first occurrence |
| Dedup.Step | conversation.tsx:30-40 | the reducer callback grows the accumulator by at most one entry, and a new entry is the record itself |
| Dedup.StepKeepsEntries | conversation.tsx:30-38 | one reduce step never changes an entry's device or timestamp, and appends exactly the record precisely when its device is new |
| Dedup.ExpectedSnoc | conversation.tsx:29-41 | the reference result for the records plus one more is one reduce step applied to the reference result for the records |
| Dedup.Reduce | conversation.tsx:29-41 | the fold of the reducer callback from an empty accumulator has at most one entry per record and is empty only for no records |
| Dedup.ReduceIsExpected | conversation.tsx:29-41 | folding the reduce step over the records yields the reference result |
| Dedup.ReduceOffers | conversation.tsx:29-41 | the in-place reduce over the accumulator yields exactly the reference result |
| Dedup.OneRecordPerDevice | conversation.tsx:29-41 | no two records of the result share a device, and a device appears in the result exactly when it appears in the input |
| Dedup.FirstOccurrenceOrder | conversation.tsx:36-38 | the result's devices are ordered by their first index in the input |
| Dedup.LatestWinsWhenAscending | conversation.tsx:33-35 | when a device's records strictly increase in time, the kept id is that of its last record |
| Dedup.NewestOfTwoWins | conversation.tsx:33-35 | with exactly two records for a device, the kept id is the strictly newer one's, and ties keep the first |
| Dedup.NewestNotKept | conversation.tsx:33-35 | for one device's records at times t1 < t3 < t2, the id of the third record is kept, not that of the newest |
| Dedup.TwoDevicesReduce | conversation.tsx:29-41 | two records of one device and one of another reduce to two records: the first device's first timestamp with the newer id, then the other record |
| Dedup.ActiveOffers | conversation.tsx:44-46 | the dialled ids are exactly the ids of result records from other devices, never more than the result has |
| Dedup.LocalDeviceNotDialled | conversation.tsx:29-47 | every dialled id comes from an input record of another device |
| Dedup.DialledOffers | conversation.tsx:29-47 | of such an input, the kept ids of the devices other than the current one are dialled, in order, and the current device's id is not |
| Dedup.SingleOffer | conversation.tsx:29-47 | a lookup returning one offer dials its id exactly when it comes from another device, and nothing otherwise |
| Conversation.InitiateMessage | conversation.tsx:88-95 | the INITIATE control message carries the store id, action "negotiate" and the target connection id |
| Conversation.Attach | conversation.tsx:198-205 | trying each track in turn keeps existing senders as a prefix, adds exactly the missing tracks, and keeps senders duplicate-free |
| Conversation.AttachIdempotent | conversation.tsx:198-205 | attaching tracks that all have senders already changes nothing |
| Conversation.NegotiateConversations.constructor | conversation.tsx:4-9 | empty registry, zero counter, no offers, no master socket; counter and registry agree |
| Conversation.NegotiateConversations.AddConnection | conversation.tsx:251-260 | the id maps to the new record, other keys keep their records, the counter grows by one even when the id was present |
| Conversation.NegotiateConversations.RemoveConnection | conversation.tsx:262-270 | only that id is deleted; the counter becomes max(count-1, 0), also when the id was absent |
| Conversation.NegotiateConversations.ResetConnections | conversation.tsx:272-275 | empty registry and zero counter |
| Conversation.NegotiateConversations.ActiveConnectionsEffect | conversation.tsx:66-73 | at zero the call stops, the local video is removed, the master socket is closed and cleared; otherwise nothing changes; either way the old master socket keeps its outbox and handlers |
| Conversation.NegotiateConversations.SetupVideoForNewConnection | conversation.tsx:128-173 | the connect timeout is armed and the state-change, command and track handlers are bound to this record |
| Conversation.NegotiateConversations.OnConnectTimeout | conversation.tsx:132-138 | a connection not connected is removed and closed; a connected one is left unchanged |
| Conversation.NegotiateConversations.AddTracks | conversation.tsx:194-207 | no track is added to a closed connection; otherwise the senders become the result of trying each track in order |
| Conversation.NegotiateConversations.OnConnectionStateChange | conversation.tsx:140-152 | reaching connected cancels the timeout, attaches the local tracks and closes this connection's relay socket; other states change nothing |
| Conversation.NegotiateConversations.OnCommand | conversation.tsx:154-167 | on a record whose command channel it handles: VIDEO_ON opens the camera, VIDEO_OFF removes the remote video and the connection, any other command changes nothing |
| Conversation.NegotiateConversations.CreateConnectionMeta | conversation.tsx:113-126 | a record for the sender id whose record, connection and channels are all new, in its initial state (flags false, connection new with no descriptions, candidates or senders, two distinct channels still connecting with nothing sent), registered, with its timeout armed; the socket and the negotiation channel dispatch to the same negotiation handler, candidate and negotiation-needed events are bound to the sender id and that socket, and the record is supervised with that socket |
| Conversation.NegotiateConversations.StartConnection | conversation.tsx:75-111 | a new socket, still connecting with nothing sent; SLAVE: a registered record for the id that is new and in its initial state, with its timeout armed, wired to the new socket (socket and negotiation channel share the negotiation handler, candidate and negotiation-needed handlers bound to the id and socket, supervised with it), and a socket that announces the id when open; MASTER: the socket becomes the master socket and listens for INITIATE, registry unchanged |
| Conversation.NegotiateConversations.OnSlaveSocketOpen | conversation.tsx:87-96 | once the slave socket is OPEN, exactly the INITIATE message is sent on it |
| Conversation.NegotiateConversations.OnMasterSocketMessage | conversation.tsx:100-107 | on INITIATE a new, different master socket (still connecting, nothing sent, no onopen) listens, and a new MASTER record in its initial state is registered under the sender's id with its connect timeout armed, wired to this socket (socket and negotiation channel share the negotiation handler, candidate and negotiation-needed handlers bound to the sender id and this socket, supervised with it); other messages change nothing |
| Conversation.NegotiateConversations.CallStartEffect | conversation.tsx:17-25 | with a call in progress and a signed-in user the camera is opened; only when that succeeds does a new master socket, still connecting with nothing sent, start and fetch offers once open; otherwise the master socket is unchanged |
| Conversation.NegotiateConversations.OnOffersFetched | conversation.tsx:26-50 | a failed or empty lookup leaves the offers unchanged; otherwise they become the non-local ids of the reduced result, each from a non-local input record |
| Conversation.NegotiateConversations.Dial | conversation.tsx:61-62 | one dial registers a new SLAVE record in its initial state under the id, arms its timeout and counts it; the record is wired to and supervised with a new socket that is still connecting, has sent nothing and announces the id once open; records dialled before keep their socket and stay dialled |
| Conversation.NegotiateConversations.ConnectToOffersEffect | conversation.tsx:56-64 | with a call in progress, each offered id gets a new SLAVE record in its initial state, registered under that id with its connect timeout armed, wired to and supervised with its own new socket that is still connecting, has sent nothing and announces the id once open; every newly armed timeout belongs to a new SLAVE record for an offered id; other records are kept, and the counter grows by the number of offers; otherwise registry, counter and timers are unchanged |
| Negotiation.Route | Negotiation.ts:96-100 | the socket is chosen exactly when it is OPEN |
| Negotiation.Outboxes | Negotiation.ts:91-101 | at most one outbox gains the message: the socket's when it is OPEN, otherwise the channel's only when the channel is open (a send on a channel that is not open throws and is caught); the other outbox is unchanged |
| Negotiation.SendMessage | Negotiation.ts:91-101 | the socket's and the channel's outboxes become the routed pair |
| Negotiation.CandidateMessage | Negotiation.ts:6-10 | action "negotiate", the peer id, the candidate (or none) and no description |
| Negotiation.DescriptionMessage | Negotiation.ts:109-113 | action "negotiate", the peer id, the description and no candidate |
| Negotiation.SendOffer | Negotiation.ts:103-115 | the description message for the peer is routed like any message: to the socket when OPEN, otherwise to the channel only when it is open, never to both |
| Negotiation.OnIceCandidate | Negotiation.ts:1-12 | the candidate message for the bound peer id is routed like any message: to the socket when OPEN, otherwise to the channel only when it is open, never to both |
| Negotiation.OnNegotiationNeeded | Negotiation.ts:14-37 | only a MASTER whose offer succeeds sets a local offer and routes one description message (delivered to at most one outbox, none when neither transport is open); a SLAVE or a failed offer changes nothing; makingOffer ends false |
| Negotiation.Classify | Negotiation.ts:46-65 | an offer is answered, any other description is applied, a candidate is relayed only without a description, otherwise nothing |
| Negotiation.EndOfCandidatesIgnored | Negotiation.ts:5-11 | the end-of-candidates message (candidate null) causes no reaction |
| Negotiation.CandidateDelivered | Negotiation.ts:63-65 | a received candidate message is relayed to addIceCandidate |
| Negotiation.DescriptionDelivered | Negotiation.ts:48-62 | a received description message is answered when an offer and applied otherwise |
| Negotiation.AddIceCandidate | Negotiation.ts:74-89 | with a remote description the candidate is applied if accepted; without one it is deferred |
| Negotiation.RetryDeferred | Negotiation.ts:79-85 | a retry re-queues the candidate without a remote description, and otherwise removes it from the queue and applies it if accepted |
| Negotiation.DrainDeferred | Negotiation.ts:79-85 | once a remote description exists, every deferred candidate is applied in arrival order and the queue empties |
| Negotiation.OnMessage | Negotiation.ts:39-72 | an offer sets remote then local answer and routes one message to the peer (delivered to at most one outbox, none when neither transport is open); another description only sets the remote one; a candidate goes through addIceCandidate; rejections change nothing further |
| Rtc.CreateRtcConnection | RtcConnection.ts:11-30 | a fresh connection with two distinct pre-negotiated channels, id 0 for commands and id 2 for negotiation |
| Rtc.CreateLocalConnection | RtcConnection.ts:66-81 | the record has the given type and id and all three flags false |
| Rtc.SetupConnection | RtcConnection.ts:32-64 | the socket and the negotiation channel dispatch to the same negotiation handler; candidate and negotiation-needed handlers are bound to the same peer id and socket |
| Handshake.OfferAnswer | Negotiation.ts:14-72 | MASTER offers and SLAVE answers: each side ends with its own description local and the other's remote, and each sends exactly one message |
| Handshake.EarlyCandidate | Negotiation.ts:74-89 | a candidate received before the offer is deferred and, after the offer is applied, its retry applies it |
| Handshake.CallOpensMaster | conversation.tsx:17-25 | after a call starts with the camera available, the master socket the effect creates can open, listens for INITIATE and fetches offers, and the camera was opened once |
| Handshake.FetchOneOffer | conversation.tsx:26-50 | in a call, a lookup returning one offer from another device leaves exactly that offer's id to dial, with nothing registered yet |
| Handshake.DialFetchedOffer | conversation.tsx:56-64 | the effect on that offer registers exactly one new SLAVE record, under the offer's id, in its initial state, with its timeout armed, supervised with a new socket that is still connecting and announces the id once open |
| Handshake.UnansweredDial | conversation.tsx:56-73 | the socket the effect dialled for a fetched offer opens and sends exactly the INITIATE message for that id; with no answer the timeout empties the registry, closes the connection, and the zero-count effect ends the call |

## Left out

- The JSX rendering (conversation.tsx:277-323), the DOM lookups
  `getLocalVideo`/`getRemoteVideo`, and `forceUpdate`: presentation only.
- `openLocalCamera`, `removeLocalVideo`, `removeRemoteVideo`, the `ontrack`
  body and the `getUserMedia` call in `createConnectionMeta`: media APIs.
  They appear only as `MediaEvent` entries or as the `ShowRemote` handler
  value. The local tracks are a parameter of `AddTracks`.
- The `VIDEO_ON` broadcast over open command channels at the end of
  `onStart` (conversation.tsx:178-181) and `onHangUp` (conversation.tsx:209-217).
  The command channel's string protocol is sent, not negotiated. The
  registry effect of hang-up is `ResetConnections`.
- Console logging, including the only use of `ignoreOffer`.
- JSON encoding and decoding. Messages are a tagged datatype, and a message
  that fails to parse is not represented.
- `rtcConfig`, SDP contents, ICE gathering and the browser's own
  connection-state transitions. Descriptions and candidates are abstract
  values, and `connectionState` changes only where this code changes it.
- The relay server, getConnections.js, getChat.js, Lambda.ts and
  profile-modal.tsx. Those files are not part of this model. The lookup of
  open offers is an input to `OnOffersFetched`. `senderConnectionId` is
  taken as present.
- Real time. The 15-second and 1-second timers are explicit steps, and the
  interleaving of awaits inside one async handler is not explored.
- `Handshake.OfferAnswer` covers only the exchange in which every browser
  verdict succeeds and both relay sockets are open. Failure paths are
  covered by the `Negotiation` contracts.
- Negotiation.DrainDeferred: states eventual application only for the case
  in which the browser accepts every candidate and the connection is not
  closed. `RetryDeferred` states what a single retry does in the other cases.
- `createdAt` is compared as an integer. The records' timestamps come from
  the offer store, whose format is not part of this model.

=== FILE: browser.dfy ===
/**
 * Abstract stand-ins for the browser objects the core drives (WebSocket,
 * RTCDataChannel, RTCPeerConnection) and the ConnectionMeta record that
 * bundles them. Only the state the core reads or writes is kept. An event
 * handler property (`onmessage`, `onicecandidate`, ...) holds a `Handler`
 * value naming which closure of the core is installed and what it captured.
 */
module Browser {
  import opened Signals

  /** The closures the core installs on event sources. */
  datatype Handler =
    | Unset
      /** onMessageHandlerNegotiation(meta, peerId, socket) */
    | NegotiationMessages(meta: ConnectionMeta, peerId: string, socket: WebSocket)
      /** onIceCandidateHandler(peerId, socket, channel) */
    | IceCandidates(peerId: string, socket: WebSocket, channel: DataChannel)
      /** onNegotiationNeededHandler(meta, peerId, socket) */
    | NegotiationNeeded(meta: ConnectionMeta, peerId: string, socket: WebSocket)
      /** the master socket's listener for INITIATE */
    | AcceptInitiate
      /** the slave socket's onopen, which announces itself to `connectionId` */
    | SendInitiate(storeId: string, connectionId: string)
      /** the first master socket's onopen, which looks up open offers */
    | FetchOffers
      /** onconnectionstatechange installed for a new connection */
    | Supervise(meta: ConnectionMeta, socket: WebSocket)
      /** the command channel's onmessage */
    | Commands(meta: ConnectionMeta)
      /** ontrack, which shows the remote stream */
    | ShowRemote(meta: ConnectionMeta)

  /** A relay socket: its ready state, what has been sent on it, its handlers. */
  class WebSocket {
    var readyState: ReadyState
    var outbox: seq<Message>
    var onmessage: Handler
    var onopen: Handler

    constructor ()
      ensures readyState == Connecting && outbox == []
      ensures onmessage == Unset && onopen == Unset
    {
      readyState, outbox := Connecting, [];
      onmessage, onopen := Unset, Unset;
    }

    /** The relay accepts the connection; after this the browser fires onopen. */
    method Establish()
      requires readyState == Connecting
      modifies this`readyState
      ensures readyState == Open
    {
      readyState := Open;
    }

    /** send(): the relay receives the message. */
    method Send(m: Message)
      modifies this`outbox
      ensures outbox == old(outbox) + [m]
    {
      outbox := outbox + [m];
    }

    method Close()
      modifies this`readyState
      ensures readyState == Closed
    {
      readyState := Closed;
    }
  }

  /** A pre-negotiated data channel. `send` throws unless the channel is open. */
  class DataChannel {
    const channelLabel: string
    const id: nat
    const negotiated: bool
    var readyState: ReadyState
    var outbox: seq<Message>
    var onmessage: Handler

    constructor (channelLabel: string, id: nat)
      ensures this.channelLabel == channelLabel && this.id == id && negotiated
      ensures readyState == Connecting && outbox == [] && onmessage == Unset
    {
      this.channelLabel, this.id, negotiated := channelLabel, id, true;
      readyState, outbox, onmessage := Connecting, [], Unset;
    }

    /** send(): delivered when open, otherwise an InvalidStateError (`sent` false). */
    method Send(m: Message) returns (sent: bool)
      modifies this`outbox
      ensures sent <==> readyState == Open
      ensures outbox == if sent then old(outbox) + [m] else old(outbox)
    {
      sent := readyState == Open;
      if sent {
        outbox := outbox + [m];
      }
    }
  }

  /**
   * An RTCPeerConnection reduced to its descriptions, the candidates it has
   * accepted, the candidates whose retry timers are still pending
   * (`deferred`), its connection state, the tracks it sends and its handlers.
   */
  class PeerConnection {
    var localDescription: Option<Description>
    var remoteDescription: Option<Description>
    var candidates: seq<Candidate>
    var deferred: seq<Candidate>
    var connectionState: PeerState
    var senders: seq<Track>
    var onicecandidate: Handler
    var onnegotiationneeded: Handler
    var onconnectionstatechange: Handler
    var ontrack: Handler

    constructor ()
      ensures localDescription.None? && remoteDescription.None?
      ensures candidates == [] && deferred == [] && senders == []
      ensures connectionState == PeerNew
      ensures onicecandidate == Unset && onnegotiationneeded == Unset
      ensures onconnectionstatechange == Unset && ontrack == Unset
    {
      localDescription, remoteDescription := None, None;
      candidates, deferred, senders := [], [], [];
      connectionState := PeerNew;
      onicecandidate, onnegotiationneeded := Unset, Unset;
      onconnectionstatechange, ontrack := Unset, Unset;
    }

    /** createDataChannel(label, {negotiated: true, id}). */
    method CreateDataChannel(channelLabel: string, id: nat) returns (channel: DataChannel)
      ensures fresh(channel)
      ensures channel.channelLabel == channelLabel && channel.id == id && channel.negotiated
      ensures channel.readyState == Connecting && channel.outbox == []
      ensures channel.onmessage == Unset
    {
      channel := new DataChannel(channelLabel, id);
    }

    method SetLocalDescription(d: Description)
      modifies this`localDescription
      ensures localDescription == Some(d)
    {
      localDescription := Some(d);
    }

    /** setRemoteDescription(); `accepted` is the browser's verdict on the SDP. */
    method SetRemoteDescription(d: Description, accepted: bool) returns (ok: bool)
      modifies this`remoteDescription
      ensures ok == accepted
      ensures remoteDescription == if ok then Some(d) else old(remoteDescription)
    {
      ok := accepted;
      if ok {
        remoteDescription := Some(d);
      }
    }

    /** addIceCandidate(): rejected on a closed connection or an invalid candidate. */
    method AddIceCandidate(c: Candidate, valid: bool) returns (ok: bool)
      modifies this`candidates
      ensures ok <==> valid && connectionState != PeerClosed
      ensures candidates == if ok then old(candidates) + [c] else old(candidates)
    {
      ok := valid && connectionState != PeerClosed;
      if ok {
        candidates := candidates + [c];
      }
    }

    /** addTrack(): throws on a closed connection or a track that already has a sender. */
    method AddTrack(t: Track) returns (ok: bool)
      modifies this`senders
      ensures ok <==> connectionState != PeerClosed && t !in old(senders)
      ensures senders == if ok then old(senders) + [t] else old(senders)
    {
      ok := connectionState != PeerClosed && t !in senders;
      if ok {
        senders := senders + [t];
      }
    }

    /** close(): terminal; pending retry timers are not cancelled. */
    method Close()
      modifies this`connectionState
      ensures connectionState == PeerClosed
    {
      connectionState := PeerClosed;
    }
  }

  /** ConnectionMeta: one per remote participant. */
  class ConnectionMeta {
    const connectionType: Role
    const connectionId: string
    const connection: PeerConnection
    const commandsChannel: DataChannel
    const negotiationChannel: DataChannel
    var makingOffer: bool
    var ignoreOffer: bool
    var isSettingRemoteAnswerPending: bool

    constructor (connectionType: Role, connectionId: string, connection: PeerConnection,
                 commandsChannel: DataChannel, negotiationChannel: DataChannel)
      ensures this.connectionType == connectionType && this.connectionId == connectionId
      ensures this.connection == connection
      ensures this.commandsChannel == commandsChannel
      ensures this.negotiationChannel == negotiationChannel
      ensures !makingOffer && !ignoreOffer && !isSettingRemoteAnswerPending
    {
      this.connectionType, this.connectionId := connectionType, connectionId;
      this.connection := connection;
      this.commandsChannel, this.negotiationChannel := commandsChannel, negotiationChannel;
      makingOffer, ignoreOffer, isSettingRemoteAnswerPending := false, false, false;
    }

    /**
     * The record as createLocalConnection leaves it, before any negotiation:
     * every flag false, no descriptions, no candidates, no senders, the
     * connection new, and two distinct channels still connecting with
     * nothing sent on them.
     */
    predicate AsCreated()
      reads this, connection, commandsChannel, negotiationChannel
    {
      && !makingOffer && !ignoreOffer && !isSettingRemoteAnswerPending
      && connection.localDescription.None? && connection.remoteDescription.None?
      && connection.candidates == [] && connection.deferred == [] && connection.senders == []
      && connection.connectionState == PeerNew
      && commandsChannel != negotiationChannel
      && commandsChannel.readyState == Connecting && negotiationChannel.readyState == Connecting
      && commandsChannel.outbox == [] && negotiationChannel.outbox == []
    }
  }
}

=== FILE: conversation.dfy ===
/**
 * The mesh orchestrator (conversation.tsx): the registry of connections and
 * the active-connection counter, the call-start offer lookup and fan-out,
 * acceptance of INITIATE on the master socket, the per-connection connect
 * timeout and state-change reactions, the command channel, and the
 * zero-count teardown.
 *
 * React state updates are applied at once and in order. Each effect is a
 * separate step that the React runtime runs after a render in which one of
 * its dependencies changed. Media and DOM work (camera, video elements,
 * re-render) is recorded as an opaque `MediaEvent`; timers are explicit
 * steps (`timers` holds the connect timeouts that are armed).
 */
module Conversation {
  import opened Signals
  import opened Browser
  import Negotiation
  import Rtc
  import Dedup

  /** Media and DOM side effects, kept only as a log. */
  datatype MediaEvent = OpenLocalCamera | RemoveLocalVideo | RemoveRemoteVideo(connectionId: string)

  /** The control message a slave socket sends once open, announcing itself to `connectionId`. */
  function InitiateMessage(storeId: string, connectionId: string): (m: Message)
    ensures m.action == NEGOTIATE && m.connectionId == connectionId
    ensures m.body == Control(storeId, Initiate)
  {
    Message(NEGOTIATE, connectionId, Control(storeId, Initiate))
  }

  /**
   * The senders after addTrack has been tried for each track in order: a track
   * already sent is rejected (the error is swallowed), any other is appended.
   */
  function Attach(senders: seq<Track>, tracks: seq<Track>): (r: seq<Track>)
    ensures |senders| <= |r| && r[..|senders|] == senders
    ensures forall t :: t in r <==> t in senders || t in tracks
    ensures (forall i, j :: 0 <= i < j < |senders| ==> senders[i] != senders[j]) ==>
      forall i, j :: 0 <= i < j < |r| ==> r[i] != r[j]
  {
    if tracks == [] then senders
    else
      var s := Attach(senders, tracks[..|tracks| - 1]);
      var t := tracks[|tracks| - 1];
      assert forall u :: u in tracks <==> u in tracks[..|tracks| - 1] || u == t by {
        assert tracks == tracks[..|tracks| - 1] + [t];
      }
      if t in s then s else s + [t]
  }

  /** Attaching to a connection that already sends every track changes nothing. */
  lemma {:induction false} AttachIdempotent(senders: seq<Track>, tracks: seq<Track>)
    requires forall t :: t in tracks ==> t in senders
    ensures Attach(senders, tracks) == senders
  {
    if tracks != [] {
      AttachIdempotent(senders, tracks[..|tracks| - 1]);
    }
  }

  /** Extending a prefix of `s` by one element adds exactly `s[i]`. */
  lemma PrefixMembers<T>(s: seq<T>, i: int)
    requires 0 <= i < |s|
    ensures forall x :: x in s[..i + 1] <==> x in s[..i] || x == s[i]
  {
    assert s[..i + 1] == s[..i] + [s[i]];
  }

  /** The state of the NegotiateConversations component. */
  class NegotiateConversations {
    const storeId: string
    const interactionId: string
    const currentDeviceId: string
    /** Whether a current user is signed in (`currentUser?.id`). */
    const signedIn: bool

    /** The registry: connectionId -> ConnectionMeta. */
    var connections: map<string, ConnectionMeta>
    var activeConnections: nat
    /** The connection ids to dial as SLAVE. */
    var offers: seq<string>
    var masterWebSocket: WebSocket?
    /**
     * `callInProgress` of the video store. The store lives outside this
     * component: only the store raises the flag (`StartCall`), and the
     * component lowers it at teardown.
     */
    var callInProgress: bool
    /** Connections whose 15-second connect timeout is armed. */
    var timers: set<ConnectionMeta>
    var mediaEvents: seq<MediaEvent>

    /** The counter agrees with the registry (not an invariant of this code). */
    ghost predicate InSync()
      reads this
    {
      activeConnections == |connections|
    }

    constructor (storeId: string, interactionId: string, currentDeviceId: string, signedIn: bool)
      ensures this.storeId == storeId && this.interactionId == interactionId
      ensures this.currentDeviceId == currentDeviceId && this.signedIn == signedIn
      ensures connections == map[] && activeConnections == 0 && offers == []
      ensures masterWebSocket == null && !callInProgress && timers == {} && mediaEvents == []
      ensures InSync()
    {
      this.storeId, this.interactionId := storeId, interactionId;
      this.currentDeviceId, this.signedIn := currentDeviceId, signedIn;
      connections, activeConnections, offers := map[], 0, [];
      masterWebSocket, callInProgress, timers, mediaEvents := null, false, {}, [];
    }

    /** The video store starts a call; the component itself never does. */
    method StartCall()
      modifies this`callInProgress
      ensures callInProgress
    {
      callInProgress := true;
    }

    // -------------------------------------------------------------------------
    // Registry and counter

    /**
     * addConnection: the id maps to the new record, every other key is kept,
     * and the counter grows by one even when the id was already registered.
     */
    method AddConnection(meta: ConnectionMeta)
      modifies this`connections, this`activeConnections
      ensures connections == old(connections)[meta.connectionId := meta]
      ensures forall k :: k in old(connections) && k != meta.connectionId ==>
        k in connections && connections[k] == old(connections)[k]
      ensures activeConnections == old(activeConnections) + 1
      ensures meta.connectionId !in old(connections) && old(InSync()) ==> InSync()
      ensures meta.connectionId in old(connections) ==>
        |connections| == |old(connections)| && activeConnections == old(activeConnections) + 1
    {
      connections := connections[meta.connectionId := meta];
      activeConnections := activeConnections + 1;
    }

    /**
     * removeConnection: deletes the record's id (whichever record it maps to)
     * and decrements the counter, floored at zero even when the id was absent.
     */
    method RemoveConnection(meta: ConnectionMeta)
      modifies this`connections, this`activeConnections
      ensures connections == old(connections) - {meta.connectionId}
      ensures meta.connectionId !in connections
      ensures activeConnections == if old(activeConnections) > 0 then old(activeConnections) - 1 else 0
      ensures meta.connectionId in old(connections) && old(InSync()) ==> InSync()
    {
      connections := connections - {meta.connectionId};
      activeConnections := if activeConnections > 0 then activeConnections - 1 else 0;
    }

    /** resetConnections: an empty registry and a zero counter. */
    method ResetConnections()
      modifies this`connections, this`activeConnections
      ensures connections == map[] && activeConnections == 0
      ensures InSync()
    {
      connections := map[];
      activeConnections := 0;
    }

    /**
     * The effect on activeConnections: at zero the call is stopped, the local
     * video removed and the master socket closed and cleared.
     */
    method ActiveConnectionsEffect()
      modifies this`callInProgress, this`mediaEvents, this`masterWebSocket, masterWebSocket
      ensures activeConnections == 0 ==>
        && !callInProgress && masterWebSocket == null
        && mediaEvents == old(mediaEvents) + [RemoveLocalVideo]
        && (old(masterWebSocket) != null ==> old(masterWebSocket).readyState == Closed)
      ensures activeConnections != 0 ==>
        && callInProgress == old(callInProgress) && masterWebSocket == old(masterWebSocket)
        && mediaEvents == old(mediaEvents)
        && (old(masterWebSocket) != null ==> old(masterWebSocket).readyState == old(masterWebSocket.readyState))
      ensures old(masterWebSocket) != null ==>
        && old(masterWebSocket).outbox == old(masterWebSocket.outbox)
        && old(masterWebSocket).onmessage == old(masterWebSocket.onmessage)
        && old(masterWebSocket).onopen == old(masterWebSocket.onopen)
    {
      if activeConnections == 0 {
        callInProgress := false;
        mediaEvents := mediaEvents + [RemoveLocalVideo];
        if masterWebSocket != null {
          masterWebSocket.Close();
        }
        masterWebSocket := null;
      }
    }

    // -------------------------------------------------------------------------
    // Per-connection supervision

    /**
     * setupVideoForNewConnection: arms the connect timeout and installs the
     * state-change, command and track handlers.
     */
    method SetupVideoForNewConnection(meta: ConnectionMeta, websocket: WebSocket)
      modifies this`timers, meta.connection`onconnectionstatechange, meta.connection`ontrack
      modifies meta.commandsChannel`onmessage
      ensures timers == old(timers) + {meta}
      ensures meta.connection.onconnectionstatechange == Supervise(meta, websocket)
      ensures meta.commandsChannel.onmessage == Commands(meta)
      ensures meta.connection.ontrack == ShowRemote(meta)
    {
      timers := timers + {meta};
      meta.connection.onconnectionstatechange := Supervise(meta, websocket);
      meta.commandsChannel.onmessage := Commands(meta);
      meta.connection.ontrack := ShowRemote(meta);
    }

    /**
     * The connect timeout fires: a connection that is not connected is
     * removed from the registry and closed; a connected one is left alone.
     */
    method OnConnectTimeout(meta: ConnectionMeta)
      requires meta in timers
      modifies this`timers, this`connections, this`activeConnections, meta.connection`connectionState
      ensures timers == old(timers) - {meta}
      ensures old(meta.connection.connectionState) != PeerConnected ==>
        && connections == old(connections) - {meta.connectionId}
        && activeConnections == (if old(activeConnections) > 0 then old(activeConnections) - 1 else 0)
        && meta.connection.connectionState == PeerClosed
      ensures old(meta.connection.connectionState) == PeerConnected ==>
        && connections == old(connections) && activeConnections == old(activeConnections)
        && meta.connection.connectionState == PeerConnected
    {
      timers := timers - {meta};
      if meta.connection.connectionState != PeerConnected {
        RemoveConnection(meta);
        meta.connection.Close();
      }
    }

    /**
     * addTracks: each local track is added unless the connection is closed;
     * a rejected addTrack is swallowed.
     */
    method AddTracks(connection: PeerConnection, tracks: seq<Track>)
      modifies connection`senders
      ensures connection.connectionState == PeerClosed ==> connection.senders == old(connection.senders)
      ensures connection.connectionState != PeerClosed ==>
        connection.senders == Attach(old(connection.senders), tracks)
    {
      var i := 0;
      while i < |tracks|
        invariant 0 <= i <= |tracks|
        invariant connection.connectionState == PeerClosed ==> connection.senders == old(connection.senders)
        invariant connection.connectionState != PeerClosed ==>
          connection.senders == Attach(old(connection.senders), tracks[..i])
      {
        if connection.connectionState != PeerClosed {
          var _ := connection.AddTrack(tracks[i]);
        }
        assert tracks[..i + 1][..i] == tracks[..i];
        i := i + 1;
      }
      assert tracks[..i] == tracks;
    }

    /**
     * onconnectionstatechange: on reaching `connected` the timeout is
     * cancelled, the local tracks are attached and the connection's relay
     * socket is closed; any other state changes nothing here.
     */
    method OnConnectionStateChange(meta: ConnectionMeta, websocket: WebSocket, tracks: seq<Track>)
      requires meta.connection.onconnectionstatechange == Supervise(meta, websocket)
      modifies this`timers, meta.connection`senders, websocket`readyState
      ensures meta.connection.connectionState == PeerConnected ==>
        && timers == old(timers) - {meta}
        && meta.connection.senders == Attach(old(meta.connection.senders), tracks)
        && websocket.readyState == Closed
      ensures meta.connection.connectionState != PeerConnected ==>
        && timers == old(timers) && meta.connection.senders == old(meta.connection.senders)
        && websocket.readyState == old(websocket.readyState)
    {
      if meta.connection.connectionState == PeerConnected {
        timers := timers - {meta};
        AddTracks(meta.connection, tracks);
        websocket.Close();
      }
    }

    /**
     * The command channel's handler: VIDEO_ON reopens the local camera,
     * VIDEO_OFF removes the remote video and the connection from the
     * registry, anything else is ignored.
     */
    method OnCommand(meta: ConnectionMeta, command: Command)
      requires meta.commandsChannel.onmessage == Commands(meta)
      modifies this`mediaEvents, this`connections, this`activeConnections
      ensures command == VideoOn ==>
        && mediaEvents == old(mediaEvents) + [OpenLocalCamera]
        && connections == old(connections) && activeConnections == old(activeConnections)
      ensures command == VideoOff ==>
        && mediaEvents == old(mediaEvents) + [RemoveRemoteVideo(meta.connectionId)]
        && connections == old(connections) - {meta.connectionId}
        && activeConnections == (if old(activeConnections) > 0 then old(activeConnections) - 1 else 0)
      ensures command.OtherCommand? ==>
        && mediaEvents == old(mediaEvents)
        && connections == old(connections) && activeConnections == old(activeConnections)
    {
      match command
      case VideoOn =>
        mediaEvents := mediaEvents + [OpenLocalCamera];
      case VideoOff =>
        mediaEvents := mediaEvents + [RemoveRemoteVideo(meta.connectionId)];
        RemoveConnection(meta);
      case OtherCommand(_) =>
    }

    // -------------------------------------------------------------------------
    // Creating connections

    /** A record created by this step, together with its connection and channels. */
    twostate predicate CreatedNow(new meta: ConnectionMeta)
    {
      fresh(meta) && fresh(meta.connection) && fresh(meta.commandsChannel) && fresh(meta.negotiationChannel)
    }

    /**
     * A record as createConnectionMeta leaves it: its role and id, not yet
     * negotiating, and its command channel handled by this component.
     */
    predicate NewRecord(meta: ConnectionMeta, role: Role, id: string)
      reads meta, meta.connection, meta.commandsChannel, meta.negotiationChannel
    {
      && meta.connectionType == role && meta.connectionId == id
      && meta.AsCreated() && meta.commandsChannel.onmessage == Commands(meta)
    }

    /**
     * The record's handlers as createConnectionMeta installs them for
     * `websocket`: the socket and the negotiation channel dispatch to the same
     * negotiation handler, candidates and negotiation-needed are bound to the
     * record's id and that socket, and the record is supervised with it.
     */
    predicate Wired(meta: ConnectionMeta, websocket: WebSocket)
      reads meta.connection, meta.negotiationChannel, websocket
    {
      && websocket.onmessage == NegotiationMessages(meta, meta.connectionId, websocket)
      && meta.negotiationChannel.onmessage == websocket.onmessage
      && meta.connection.onicecandidate == IceCandidates(meta.connectionId, websocket, meta.negotiationChannel)
      && meta.connection.onnegotiationneeded == NegotiationNeeded(meta, meta.connectionId, websocket)
      && meta.connection.onconnectionstatechange == Supervise(meta, websocket)
    }

    /**
     * A record as startConnection(SLAVE) leaves it: wired to the socket it is
     * supervised with, and that socket still connecting, with nothing sent,
     * and announcing the record's id once open.
     */
    predicate Dialled(meta: ConnectionMeta)
      reads meta.connection, meta.negotiationChannel
      reads if meta.connection.onconnectionstatechange.Supervise?
            then {meta.connection.onconnectionstatechange.socket} else {}
    {
      && meta.connection.onconnectionstatechange.Supervise?
      && var websocket := meta.connection.onconnectionstatechange.socket;
         && Wired(meta, websocket)
         && websocket.onopen == SendInitiate(storeId, meta.connectionId)
         && websocket.readyState == Connecting && websocket.outbox == []
    }

    /**
     * createConnectionMeta: a new record wired to `websocket`, supervised, and
     * registered under `senderConnectionId`.
     */
    method CreateConnectionMeta(websocket: WebSocket, connectionType: Role, senderConnectionId: string)
      returns (meta: ConnectionMeta)
      modifies this`connections, this`activeConnections, this`timers, websocket`onmessage
      ensures CreatedNow(meta) && NewRecord(meta, connectionType, senderConnectionId)
      ensures connections == old(connections)[senderConnectionId := meta]
      ensures activeConnections == old(activeConnections) + 1
      ensures timers == old(timers) + {meta}
      ensures Wired(meta, websocket)
      ensures meta.connection.ontrack == ShowRemote(meta)
    {
      meta := Rtc.SetupConnection(websocket, connectionType, senderConnectionId);
      SetupVideoForNewConnection(meta, websocket);
      assert NewRecord(meta, connectionType, senderConnectionId) && Wired(meta, websocket);
      AddConnection(meta);
    }

    /**
     * startConnection: a fresh relay socket. As SLAVE it gets a connection
     * record for `connectionId` and announces itself once open; as MASTER it
     * becomes the master socket and listens for INITIATE.
     */
    method StartConnection(connectionType: Role, connectionId: string) returns (websocket: WebSocket)
      modifies this`connections, this`activeConnections, this`timers, this`masterWebSocket
      ensures fresh(websocket) && websocket.readyState == Connecting && websocket.outbox == []
      ensures connectionType == Slave ==>
        && connectionId in connections
        && connections == old(connections)[connectionId := connections[connectionId]]
        && CreatedNow(connections[connectionId]) && NewRecord(connections[connectionId], Slave, connectionId)
        && Wired(connections[connectionId], websocket)
        && websocket.onopen == SendInitiate(storeId, connectionId)
        && activeConnections == old(activeConnections) + 1
        && timers == old(timers) + {connections[connectionId]}
        && masterWebSocket == old(masterWebSocket)
      ensures connectionType == Master ==>
        && connections == old(connections) && activeConnections == old(activeConnections)
        && timers == old(timers)
        && masterWebSocket == websocket
        && websocket.onmessage == AcceptInitiate && websocket.onopen == Unset
    {
      websocket := new WebSocket();
      if connectionType == Slave {
        var meta := CreateConnectionMeta(websocket, Slave, connectionId);
        websocket.onopen := SendInitiate(storeId, connectionId);
      } else {
        masterWebSocket := websocket;
        websocket.onmessage := AcceptInitiate;
      }
    }

    /** A slave socket's onopen: the INITIATE message goes out on that socket. */
    method OnSlaveSocketOpen(websocket: WebSocket)
      requires websocket.onopen.SendInitiate? && websocket.readyState == Open
      modifies websocket`outbox
      ensures websocket.outbox
              == old(websocket.outbox) + [InitiateMessage(websocket.onopen.storeId, websocket.onopen.connectionId)]
    {
      websocket.Send(InitiateMessage(websocket.onopen.storeId, websocket.onopen.connectionId));
    }

    /**
     * The master socket's onmessage: on INITIATE a fresh master socket takes
     * over listening, and this socket is handed to a new MASTER record for
     * the sender, whose setup replaces this handler with negotiation. Any
     * other message is ignored.
     */
    method OnMasterSocketMessage(websocket: WebSocket, msg: Incoming)
      requires websocket.onmessage == AcceptInitiate
      modifies this`connections, this`activeConnections, this`timers, this`masterWebSocket
      modifies websocket`onmessage
      ensures msg.messageType == Some(Initiate) ==>
        && masterWebSocket != null && fresh(masterWebSocket) && masterWebSocket != websocket
        && masterWebSocket.onmessage == AcceptInitiate
        && masterWebSocket.readyState == Connecting && masterWebSocket.outbox == []
        && msg.senderConnectionId in connections
        && connections == old(connections)[msg.senderConnectionId := connections[msg.senderConnectionId]]
        && CreatedNow(connections[msg.senderConnectionId])
        && NewRecord(connections[msg.senderConnectionId], Master, msg.senderConnectionId)
        && Wired(connections[msg.senderConnectionId], websocket)
        && timers == old(timers) + {connections[msg.senderConnectionId]}
        && masterWebSocket.onopen == Unset
        && activeConnections == old(activeConnections) + 1
      ensures msg.messageType != Some(Initiate) ==>
        && connections == old(connections) && activeConnections == old(activeConnections)
        && masterWebSocket == old(masterWebSocket) && websocket.onmessage == AcceptInitiate
        && timers == old(timers)
    {
      if msg.messageType == Some(Initiate) {
        var listener := StartConnection(Master, "");
        var meta := CreateConnectionMeta(websocket, Master, msg.senderConnectionId);
      }
    }

    // -------------------------------------------------------------------------
    // Call start

    /**
     * The effect on callInProgress: when a call is in progress and a user is
     * signed in, the local camera is opened. Only when that succeeds
     * (`cameraOk`; getUserMedia rejects when access is denied) is a master
     * socket started, which looks up open offers once it is open.
     */
    method CallStartEffect(cameraOk: bool)
      modifies this`mediaEvents, this`masterWebSocket
      modifies this`connections, this`activeConnections, this`timers
      ensures connections == old(connections) && activeConnections == old(activeConnections)
      ensures timers == old(timers)
      ensures callInProgress && signedIn ==> mediaEvents == old(mediaEvents) + [OpenLocalCamera]
      ensures callInProgress && signedIn && cameraOk ==>
        && masterWebSocket != null && fresh(masterWebSocket)
        && masterWebSocket.onmessage == AcceptInitiate && masterWebSocket.onopen == FetchOffers
        && masterWebSocket.readyState == Connecting && masterWebSocket.outbox == []
      ensures !(callInProgress && signedIn && cameraOk) ==> masterWebSocket == old(masterWebSocket)
      ensures !(callInProgress && signedIn) ==> mediaEvents == old(mediaEvents)
    {
      if callInProgress && signedIn {
        mediaEvents := mediaEvents + [OpenLocalCamera];
        if cameraOk {
          var websocket := StartConnection(Master, "");
          websocket.onopen := FetchOffers;
        }
      }
    }

    /**
     * The lookup of open offers answers: `fetched` is None when it failed.
     * The records are reduced to one per device; when that leaves any, the
     * ids of those not from this device become the offers to dial.
     */
    method OnOffersFetched(fetched: Option<seq<Dedup.OfferRecord>>)
      modifies this`offers
      ensures fetched.None? || fetched.value == [] ==> offers == old(offers)
      ensures fetched.Some? && fetched.value != [] ==>
        offers == Dedup.ActiveOffers(Dedup.Expected(fetched.value), currentDeviceId)
      ensures forall id :: id in offers && id !in old(offers) ==>
        exists i :: 0 <= i < |fetched.value| && fetched.value[i].deviceId != currentDeviceId
                    && fetched.value[i].connectionId == id
    {
      if fetched.Some? {
        var result := Dedup.ReduceOffers(fetched.value);
        if |result| > 0 {
          offers := Dedup.ActiveOffers(result, currentDeviceId);
          forall id | id in offers
            ensures exists i :: 0 <= i < |fetched.value| && fetched.value[i].deviceId != currentDeviceId
                                && fetched.value[i].connectionId == id
          {
            Dedup.LocalDeviceNotDialled(fetched.value, currentDeviceId, id);
          }
        }
      }
    }

    /**
     * startConnection(SLAVE, id), seen from the registry: one new record for
     * `id`, wired to a fresh socket that is still connecting; the records in
     * `before` keep their socket and stay as dialled.
     */
    method Dial(id: string, ghost before: set<ConnectionMeta>)
      modifies this`connections, this`activeConnections, this`timers, this`masterWebSocket
      ensures id in connections && connections == old(connections)[id := connections[id]]
      ensures CreatedNow(connections[id]) && NewRecord(connections[id], Slave, id)
      ensures Dialled(connections[id]) && fresh(connections[id].connection.onconnectionstatechange.socket)
      ensures timers == old(timers) + {connections[id]}
      ensures activeConnections == old(activeConnections) + 1
      ensures masterWebSocket == old(masterWebSocket)
      ensures forall m :: m in before ==>
        && m.connection.onconnectionstatechange == old(m.connection.onconnectionstatechange)
        && (old(NewRecord(m, Slave, m.connectionId) && Dialled(m)) ==> NewRecord(m, Slave, m.connectionId) && Dialled(m))
    {
      var websocket := StartConnection(Slave, id);
    }

    /**
     * The effect on offers: while a call is in progress, a SLAVE connection is
     * started toward every offered id, in order.
     */
    method ConnectToOffersEffect()
      modifies this`connections, this`activeConnections, this`timers, this`masterWebSocket
      ensures !callInProgress ==>
        && connections == old(connections) && activeConnections == old(activeConnections)
        && timers == old(timers)
      ensures callInProgress ==>
        && activeConnections == old(activeConnections) + |offers|
        && (forall k :: k in connections <==> k in old(connections) || k in offers)
        && (forall id :: id in offers ==>
              && CreatedNow(connections[id]) && NewRecord(connections[id], Slave, id)
              && Dialled(connections[id]) && fresh(connections[id].connection.onconnectionstatechange.socket)
              && connections[id] in timers)
        && (forall k :: k in old(connections) && k !in offers ==> connections[k] == old(connections)[k])
        && old(timers) <= timers
        && (forall m :: m in timers && m !in old(timers) ==>
              fresh(m) && m.connectionType == Slave && m.connectionId in offers)
      ensures masterWebSocket == old(masterWebSocket)
    {
      if callInProgress {
        var i := 0;
        ghost var created: set<ConnectionMeta> := {};
        while i < |offers|
          invariant 0 <= i <= |offers|
          invariant activeConnections == old(activeConnections) + i
          invariant forall k :: k in connections <==> k in old(connections) || k in offers[..i]
          invariant forall id :: id in offers[..i] ==> connections[id] in created && connections[id].connectionId == id
          invariant timers == old(timers) + created
          invariant forall m :: m in created ==>
            && CreatedNow(m) && NewRecord(m, Slave, m.connectionId) && m.connectionId in offers
            && Dialled(m) && fresh(m.connection.onconnectionstatechange.socket)
          invariant forall k :: k in old(connections) && k !in offers[..i] ==> connections[k] == old(connections)[k]
          invariant masterWebSocket == old(masterWebSocket)
        {
          ghost var before := created;
          Dial(offers[i], before);
          created := created + {connections[offers[i]]};
          PrefixMembers(offers, i);
          forall id | id in offers[..i + 1]
            ensures connections[id] in created && connections[id].connectionId == id
          {
            if id != offers[i] {
              assert id in offers[..i];
            }
          }
          i := i + 1;
        }
        assert offers[..i] == offers;
      }
    }
  }
}

=== FILE: dedup.dfy ===
/**
 * The de-duplication of open offers at call start (conversation.tsx): a
 * reduce that keeps one record per device, followed by a filter that drops
 * the local device and a map to connection ids.
 *
 * The reduce keeps the FIRST record it sees for a device and afterwards only
 * overwrites that record's connectionId, never its createdAt. A later record
 * therefore replaces the id when it is newer than the device's first record,
 * not when it is newer than the id kept so far. `Expected` states that
 * outcome independently of the loop: per device, in order of first
 * occurrence, the first record carrying the id of the last record that is
 * strictly newer than the first one.
 */
module Dedup {

  /** An open offer as returned by the participant lookup. */
  datatype OfferRecord = OfferRecord(connectionId: string, deviceId: string, createdAt: int)

  /** Array.prototype.findIndex on deviceId: the first index of `deviceId`, or -1. */
  function FindIndex(s: seq<OfferRecord>, deviceId: string): (i: int)
    ensures -1 <= i < |s|
    ensures 0 <= i ==> s[i].deviceId == deviceId
    ensures 0 <= i ==> forall k :: 0 <= k < i ==> s[k].deviceId != deviceId
    ensures i == -1 ==> forall k :: 0 <= k < |s| ==> s[k].deviceId != deviceId
  {
    if s == [] then -1
    else if s[0].deviceId == deviceId then 0
    else
      var j := FindIndex(s[1..], deviceId);
      if j == -1 then -1 else j + 1
  }

  /** Some record of `s` comes from `deviceId`. */
  predicate Present(s: seq<OfferRecord>, deviceId: string)
  {
    exists i :: 0 <= i < |s| && s[i].deviceId == deviceId
  }

  /** The distinct devices of `s`, in order of first occurrence. */
  function Devices(s: seq<OfferRecord>): (r: seq<string>)
    ensures forall d :: d in r <==> Present(s, d)
    ensures forall i, j :: 0 <= i < j < |r| ==> r[i] != r[j]
    ensures |r| == 0 <==> |s| == 0
  {
    if s == [] then []
    else
      var p := Devices(s[..|s| - 1]);
      var d := s[|s| - 1].deviceId;
      assert forall e :: Present(s, e) <==> Present(s[..|s| - 1], e) || e == d by {
        forall e | Present(s, e) ensures Present(s[..|s| - 1], e) || e == d {
          var i :| 0 <= i < |s| && s[i].deviceId == e;
          if i < |s| - 1 {
            assert s[..|s| - 1][i] == s[i];
          }
        }
        forall e | Present(s[..|s| - 1], e) ensures Present(s, e) {
          var i :| 0 <= i < |s| - 1 && s[..|s| - 1][i].deviceId == e;
          assert s[i] == s[..|s| - 1][i];
        }
        assert Present(s, d) by { assert s[|s| - 1].deviceId == d; }
      }
      if d in p then p else p + [d]
  }

  /** `o` comes from `deviceId` and is strictly newer than `createdAt`. */
  predicate NewerFrom(o: OfferRecord, deviceId: string, createdAt: int)
  {
    o.deviceId == deviceId && o.createdAt > createdAt
  }

  /**
   * The connection id of the LAST record of `deviceId` strictly newer than
   * `createdAt`, or `fallback` when there is none.
   */
  function NewerId(s: seq<OfferRecord>, deviceId: string, createdAt: int, fallback: string)
    : (r: string)
    ensures (forall k :: 0 <= k < |s| ==> !NewerFrom(s[k], deviceId, createdAt)) ==> r == fallback
    ensures (exists k :: 0 <= k < |s| && NewerFrom(s[k], deviceId, createdAt)) ==>
      exists j :: 0 <= j < |s| && NewerFrom(s[j], deviceId, createdAt) && r == s[j].connectionId
                  && forall k :: j < k < |s| ==> !NewerFrom(s[k], deviceId, createdAt)
  {
    if s == [] then fallback
    else
      var last := s[|s| - 1];
      if NewerFrom(last, deviceId, createdAt) then last.connectionId
      else
        var r := NewerId(s[..|s| - 1], deviceId, createdAt, fallback);
        assert forall k :: 0 <= k < |s| - 1 ==> s[..|s| - 1][k] == s[k];
        r
  }

  /**
   * The record the reduce keeps for a present device: its first record, with
   * the id of the last record strictly newer than that first one (the first
   * record's own id when there is none, so ties keep the earlier id).
   */
  function Kept(s: seq<OfferRecord>, deviceId: string): (r: OfferRecord)
    requires Present(s, deviceId)
    ensures r.deviceId == deviceId
  {
    var first := s[FindIndex(s, deviceId)];
    first.(connectionId := NewerId(s, deviceId, first.createdAt, first.connectionId))
  }

  /**
   * The kept record keeps the timestamp of the device's first record, and its
   * id is that of a record of the same device that is no older.
   */
  lemma KeptOrigin(s: seq<OfferRecord>, deviceId: string)
    requires Present(s, deviceId)
    ensures exists i :: 0 <= i < |s| && s[i].deviceId == deviceId
                        && Kept(s, deviceId).createdAt == s[i].createdAt
                        && forall k :: 0 <= k < i ==> s[k].deviceId != deviceId
    ensures exists j :: 0 <= j < |s| && s[j].deviceId == deviceId
                        && Kept(s, deviceId).connectionId == s[j].connectionId
                        && s[j].createdAt >= Kept(s, deviceId).createdAt
  {
    var f := FindIndex(s, deviceId);
    var t := s[f].createdAt;
    if exists k :: 0 <= k < |s| && NewerFrom(s[k], deviceId, t) {
      var j :| 0 <= j < |s| && NewerFrom(s[j], deviceId, t)
               && NewerId(s, deviceId, t, s[f].connectionId) == s[j].connectionId;
    }
  }

  /** The reduce's result: one kept record per device, in order of first occurrence. */
  function Expected(s: seq<OfferRecord>): (r: seq<OfferRecord>)
    ensures |r| == |Devices(s)|
    ensures forall k :: 0 <= k < |r| ==> r[k].deviceId == Devices(s)[k]
  {
    var ds := Devices(s);
    seq(|ds|, k requires 0 <= k < |ds| => Kept(s, ds[k]))
  }

  // ---------------------------------------------------------------------------
  // How the reduce's result grows by one record

  /** Appending a record does not move the first index of a device already present. */
  lemma FindIndexSnoc(p: seq<OfferRecord>, x: OfferRecord, d: string)
    requires Present(p, d)
    ensures FindIndex(p + [x], d) == FindIndex(p, d)
  {
    var s := p + [x];
    assert forall k :: 0 <= k < |p| ==> s[k] == p[k];
  }

  /** The first index of a device absent from `p` is that of the appended record. */
  lemma FindIndexSnocAbsent(p: seq<OfferRecord>, x: OfferRecord)
    requires !Present(p, x.deviceId)
    ensures FindIndex(p + [x], x.deviceId) == |p|
  {
    var s := p + [x];
    assert s[|p|] == x;
    assert forall k :: 0 <= k < |p| ==> s[k] == p[k];
  }

  lemma NewerIdSnoc(p: seq<OfferRecord>, x: OfferRecord, d: string, t: int, fallback: string)
    ensures NewerId(p + [x], d, t, fallback)
            == if NewerFrom(x, d, t) then x.connectionId else NewerId(p, d, t, fallback)
  {
    assert (p + [x])[..|p + [x]| - 1] == p;
  }

  lemma KeptSnoc(p: seq<OfferRecord>, x: OfferRecord, d: string)
    requires Present(p, d)
    ensures Present(p + [x], d)
    ensures Kept(p + [x], d)
            == if x.deviceId == d && x.createdAt > Kept(p, d).createdAt
               then Kept(p, d).(connectionId := x.connectionId)
               else Kept(p, d)
  {
    var s := p + [x];
    var i :| 0 <= i < |p| && p[i].deviceId == d;
    assert s[i] == p[i];
    FindIndexSnoc(p, x, d);
    var f := FindIndex(p, d);
    assert s[f] == p[f];
    NewerIdSnoc(p, x, d, p[f].createdAt, p[f].connectionId);
  }

  lemma KeptSnocAbsent(p: seq<OfferRecord>, x: OfferRecord)
    requires !Present(p, x.deviceId)
    ensures Present(p + [x], x.deviceId)
    ensures Kept(p + [x], x.deviceId) == x
  {
    var s := p + [x];
    assert s[|p|] == x;
    FindIndexSnocAbsent(p, x);
    NewerIdSnoc(p, x, x.deviceId, x.createdAt, x.connectionId);
  }

  lemma DevicesSnoc(p: seq<OfferRecord>, x: OfferRecord)
    ensures Devices(p + [x])
            == if x.deviceId in Devices(p) then Devices(p) else Devices(p) + [x.deviceId]
  {
    assert (p + [x])[..|p + [x]| - 1] == p;
  }

  lemma ExpectedAt(s: seq<OfferRecord>, k: nat)
    requires k < |Devices(s)|
    ensures Present(s, Devices(s)[k])
    ensures k < |Expected(s)| && Expected(s)[k] == Kept(s, Devices(s)[k])
  {
  }

  /** The reduce's step for a record whose device is already in the result. */
  lemma ExpectedSnocPresent(p: seq<OfferRecord>, x: OfferRecord, found: nat)
    requires found < |Devices(p)| && Devices(p)[found] == x.deviceId
    ensures found < |Expected(p)|
    ensures Expected(p + [x])
            == if x.createdAt > Expected(p)[found].createdAt
               then Expected(p)[found := Expected(p)[found].(connectionId := x.connectionId)]
               else Expected(p)
  {
    var s := p + [x];
    var acc := Expected(p);
    var ds := Devices(p);
    DevicesSnoc(p, x);
    assert Devices(s) == ds;
    var want := if x.createdAt > acc[found].createdAt
                then acc[found := acc[found].(connectionId := x.connectionId)] else acc;
    forall k | 0 <= k < |ds| ensures Expected(s)[k] == want[k] {
      ExpectedAt(p, k);
      ExpectedAt(s, k);
      KeptSnoc(p, x, ds[k]);
      if k != found {
        assert ds[k] != x.deviceId;
      }
    }
  }

  /** The reduce's step for a record of a new device. */
  lemma ExpectedSnocAbsent(p: seq<OfferRecord>, x: OfferRecord)
    requires x.deviceId !in Devices(p)
    ensures Expected(p + [x]) == Expected(p) + [x]
  {
    var s := p + [x];
    var acc := Expected(p);
    var ds := Devices(p);
    DevicesSnoc(p, x);
    assert Devices(s) == ds + [x.deviceId];
    forall k | 0 <= k < |ds| ensures Expected(s)[k] == acc[k] {
      ExpectedAt(p, k);
      ExpectedAt(s, k);
      KeptSnoc(p, x, ds[k]);
    }
    ExpectedAt(s, |ds|);
    KeptSnocAbsent(p, x);
  }

  /**
   * One step of the reduce on the accumulator: a record of a new device is
   * pushed; for a known device only the id is overwritten, and only when the
   * record is newer than the device's entry.
   */
  function Step(acc: seq<OfferRecord>, x: OfferRecord): (r: seq<OfferRecord>)
    ensures |acc| <= |r| <= |acc| + 1
    ensures |r| == |acc| + 1 ==> r[|acc|] == x
  {
    var found := FindIndex(acc, x.deviceId);
    if found > -1 then
      if x.createdAt > acc[found].createdAt
      then acc[found := acc[found].(connectionId := x.connectionId)]
      else acc
    else acc + [x]
  }

  /**
   * A step never changes an entry's device or createdAt, and it grows the
   * accumulator, by exactly the record, precisely when the record's device
   * is new.
   */
  lemma StepKeepsEntries(acc: seq<OfferRecord>, x: OfferRecord)
    ensures var r := Step(acc, x);
      && |acc| <= |r| <= |acc| + 1
      && (forall k :: 0 <= k < |acc| ==>
            r[k].deviceId == acc[k].deviceId && r[k].createdAt == acc[k].createdAt)
      && (|r| == |acc| + 1 <==> forall k :: 0 <= k < |acc| ==> acc[k].deviceId != x.deviceId)
      && (|r| == |acc| + 1 ==> r[|acc|] == x)
  {
  }

  /** The reference result grows by exactly one reduce step per record. */
  lemma ExpectedSnoc(p: seq<OfferRecord>, x: OfferRecord)
    ensures Expected(p + [x]) == Step(Expected(p), x)
  {
    var acc := Expected(p);
    var found := FindIndex(acc, x.deviceId);
    if found > -1 {
      ExpectedSnocPresent(p, x, found);
    } else {
      assert x.deviceId !in Devices(p) by {
        forall k | 0 <= k < |Devices(p)| ensures Devices(p)[k] != x.deviceId {
          assert acc[k].deviceId == Devices(p)[k];
        }
      }
      ExpectedSnocAbsent(p, x);
    }
  }

  // ---------------------------------------------------------------------------
  // Properties of the reduce's result

  /** Each device of the input appears in the result exactly once. */
  lemma OneRecordPerDevice(s: seq<OfferRecord>)
    ensures forall i, j :: 0 <= i < j < |Expected(s)| ==> Expected(s)[i].deviceId != Expected(s)[j].deviceId
    ensures forall d :: Present(s, d) <==> Present(Expected(s), d)
  {
    var r := Expected(s);
    forall d | Present(s, d) ensures Present(r, d) {
      var k :| 0 <= k < |Devices(s)| && Devices(s)[k] == d;
      assert r[k].deviceId == d;
    }
  }

  /** Devices appear in the result in the order of their first occurrence in the input. */
  lemma {:induction false} FirstOccurrenceOrder(s: seq<OfferRecord>)
    ensures forall i, j :: 0 <= i < j < |Devices(s)| ==>
      FindIndex(s, Devices(s)[i]) < FindIndex(s, Devices(s)[j])
  {
    if s != [] {
      var p, x := s[..|s| - 1], s[|s| - 1];
      assert s == p + [x];
      FirstOccurrenceOrder(p);
      DevicesSnoc(p, x);
      var dp, ds := Devices(p), Devices(s);
      forall k | 0 <= k < |dp| ensures FindIndex(s, dp[k]) == FindIndex(p, dp[k]) < |p| {
        assert Present(p, dp[k]);
        FindIndexSnoc(p, x, dp[k]);
      }
      if x.deviceId !in dp {
        FindIndexSnocAbsent(p, x);
      }
      forall i, j | 0 <= i < j < |ds| ensures FindIndex(s, ds[i]) < FindIndex(s, ds[j]) {
        assert ds[i] == dp[i];
        if j < |dp| {
          assert ds[j] == dp[j];
        } else {
          assert ds[j] == x.deviceId && x.deviceId !in dp;
        }
      }
    }
  }

  /**
   * When a device's records arrive in strictly increasing createdAt order,
   * the id of its last record is kept ("latest wins").
   */
  lemma LatestWinsWhenAscending(s: seq<OfferRecord>, d: string, last: nat)
    requires last < |s| && s[last].deviceId == d
    requires forall k :: last < k < |s| ==> s[k].deviceId != d
    requires forall i, j :: 0 <= i < j < |s| && s[i].deviceId == d && s[j].deviceId == d ==>
      s[i].createdAt < s[j].createdAt
    ensures Present(s, d)
    ensures Kept(s, d).connectionId == s[last].connectionId
  {
    var f := FindIndex(s, d);
    var t := s[f].createdAt;
    if f < last {
      assert NewerFrom(s[last], d, t);
      var r := NewerId(s, d, t, s[f].connectionId);
      var j :| 0 <= j < |s| && NewerFrom(s[j], d, t) && r == s[j].connectionId
               && forall k :: j < k < |s| ==> !NewerFrom(s[k], d, t);
      assert j == last;
    } else {
      assert forall k :: 0 <= k < |s| ==> !NewerFrom(s[k], d, t);
    }
  }

  /**
   * With at most two records for a device the newer one wins, and a tie
   * keeps the earlier one.
   */
  lemma NewestOfTwoWins(s: seq<OfferRecord>, d: string, first: nat, second: nat)
    requires first < second < |s|
    requires s[first].deviceId == d && s[second].deviceId == d
    requires forall k :: 0 <= k < |s| && s[k].deviceId == d ==> k == first || k == second
    ensures Present(s, d)
    ensures Kept(s, d).connectionId
            == if s[second].createdAt > s[first].createdAt then s[second].connectionId
               else s[first].connectionId
  {
    var f := FindIndex(s, d);
    assert f == first;
    var t := s[f].createdAt;
    if s[second].createdAt > t {
      assert NewerFrom(s[second], d, t);
    } else {
      assert forall k :: 0 <= k < |s| ==> !NewerFrom(s[k], d, t);
    }
  }

  // ---------------------------------------------------------------------------
  // The dialled list

  /** filter(deviceId !== currentDeviceId).map(connectionId). */
  function ActiveOffers(result: seq<OfferRecord>, currentDeviceId: string): (ids: seq<string>)
    ensures |ids| <= |result|
    ensures forall id :: id in ids <==>
      exists i :: 0 <= i < |result| && result[i].deviceId != currentDeviceId
                  && result[i].connectionId == id
  {
    if result == [] then []
    else
      var rest := ActiveOffers(result[1..], currentDeviceId);
      assert forall i :: 0 < i < |result| ==> result[i] == result[1..][i - 1];
      if result[0].deviceId != currentDeviceId then [result[0].connectionId] + rest else rest
  }

  /** A dialled id never belongs to a record of the local device only. */
  lemma LocalDeviceNotDialled(s: seq<OfferRecord>, currentDeviceId: string, id: string)
    requires id in ActiveOffers(Expected(s), currentDeviceId)
    ensures exists i :: 0 <= i < |s| && s[i].deviceId != currentDeviceId && s[i].connectionId == id
  {
    var r := Expected(s);
    var k :| 0 <= k < |r| && r[k].deviceId != currentDeviceId && r[k].connectionId == id;
    ExpectedAt(s, k);
    var d := Devices(s)[k];
    var f := FindIndex(s, d);
    var t := s[f].createdAt;
    var kept := NewerId(s, d, t, s[f].connectionId);
    assert r[k].connectionId == kept && d != currentDeviceId;
    if exists j :: 0 <= j < |s| && NewerFrom(s[j], d, t) {
      var j :| 0 <= j < |s| && NewerFrom(s[j], d, t) && kept == s[j].connectionId;
      assert s[j].deviceId != currentDeviceId && s[j].connectionId == id;
    } else {
      assert s[f].deviceId != currentDeviceId && s[f].connectionId == id;
    }
  }

  /** The reduce as a left fold of `Step` over the records. */
  function Reduce(s: seq<OfferRecord>): (r: seq<OfferRecord>)
    ensures |r| <= |s|
    ensures s != [] ==> r != []
  {
    if s == [] then [] else Step(Reduce(s[..|s| - 1]), s[|s| - 1])
  }

  /** The fold computes the reference result. */
  lemma {:induction false} ReduceIsExpected(s: seq<OfferRecord>)
    ensures Reduce(s) == Expected(s)
  {
    if s == [] {
      assert |Expected(s)| == |Devices(s)| == 0;
    } else {
      var p, x := s[..|s| - 1], s[|s| - 1];
      assert s == p + [x];
      ReduceIsExpected(p);
      ExpectedSnoc(p, x);
      assert Reduce(s) == Step(Expected(p), x);
    }
  }

  /**
   * offers.reduce(...): walks the records once, pushing the first record of
   * each device and overwriting the kept record's connectionId when a later
   * record is newer than the kept createdAt.
   */
  method ReduceOffers(offers: seq<OfferRecord>) returns (accumulator: seq<OfferRecord>)
    ensures accumulator == Expected(offers)
  {
    accumulator := [];
    var i := 0;
    while i < |offers|
      invariant 0 <= i <= |offers|
      invariant accumulator == Reduce(offers[..i])
    {
      var currentValue := offers[i];
      ghost var previous := accumulator;
      var found := FindIndex(accumulator, currentValue.deviceId);
      if found > -1 {
        if currentValue.createdAt > accumulator[found].createdAt {
          accumulator := accumulator[found := accumulator[found].(connectionId := currentValue.connectionId)];
        }
      } else {
        accumulator := accumulator + [currentValue];
      }
      assert accumulator == Step(previous, currentValue);
      assert offers[..i + 1][..i] == offers[..i];
      assert Reduce(offers[..i + 1]) == Step(Reduce(offers[..i]), currentValue);
      i := i + 1;
    }
    assert offers[..i] == offers;
    ReduceIsExpected(offers);
  }

  /** The reference result of three records is two reduce steps after the first record. */
  lemma ExpectedThree(a: OfferRecord, b: OfferRecord, c: OfferRecord)
    ensures Expected([a, b, c]) == Step(Step([a], b), c)
  {
    ReduceIsExpected([a, b, c]);
    assert [a, b, c][..2] == [a, b];
    assert [a, b][..1] == [a];
    assert [a][..0] == [];
    assert Reduce([a]) == [a];
  }

  /**
   * Three records, two devices: the later record of the first device wins when
   * it is newer, and the other device's record is kept as it is.
   */
  lemma TwoDevicesReduce(a: OfferRecord, b: OfferRecord, c: OfferRecord)
    requires a.deviceId == b.deviceId && c.deviceId != a.deviceId
    requires b.createdAt > a.createdAt
    ensures Expected([a, b, c]) == [a.(connectionId := b.connectionId), c]
  {
    ExpectedThree(a, b, c);
    var kept := a.(connectionId := b.connectionId);
    assert FindIndex([a], b.deviceId) == 0;
    assert Step([a], b) == [kept];
    assert FindIndex([kept], c.deviceId) == -1;
  }

  /**
   * Latest does not always win: when one device's records have createdAt
   * t1 < t3 < t2, the kept id is that of the third record, not of the newest
   * (second) one, because the third record is compared with the first
   * record's createdAt, which the reduce never updates.
   */
  lemma NewestNotKept(a: OfferRecord, b: OfferRecord, c: OfferRecord)
    requires a.deviceId == b.deviceId == c.deviceId
    requires a.createdAt < c.createdAt < b.createdAt
    ensures Expected([a, b, c]) == [a.(connectionId := c.connectionId)]
  {
    ExpectedThree(a, b, c);
    var kept := a.(connectionId := b.connectionId);
    assert FindIndex([a], b.deviceId) == 0;
    assert Step([a], b) == [kept];
    assert FindIndex([kept], c.deviceId) == 0;
  }

  /**
   * Two records of one device and one of another, seen from a third device:
   * the newer id of the first device and the other device's id are dialled,
   * in that order; seen from the other device, only the first device's id.
   */
  lemma DialledOffers(a: OfferRecord, b: OfferRecord, c: OfferRecord, currentDeviceId: string)
    requires a.deviceId == b.deviceId && c.deviceId != a.deviceId
    requires b.createdAt > a.createdAt
    requires currentDeviceId != a.deviceId
    ensures ActiveOffers(Expected([a, b, c]), currentDeviceId)
            == if currentDeviceId == c.deviceId then [b.connectionId]
               else [b.connectionId, c.connectionId]
  {
    TwoDevicesReduce(a, b, c);
    var r := [a.(connectionId := b.connectionId), c];
    assert r[1..] == [c];
    assert r[1..][1..] == [];
  }

  /** A single offer is dialled exactly when it comes from another device. */
  lemma SingleOffer(a: OfferRecord, currentDeviceId: string)
    ensures ActiveOffers(Expected([a]), currentDeviceId)
            == if a.deviceId == currentDeviceId then [] else [a.connectionId]
  {
    ReduceIsExpected([a]);
    assert Reduce([a]) == Step([], a) == [a];
  }
}

=== FILE: handshake.dfy ===
/**
 * Whole exchanges. Two peers negotiate through the handlers of
 * Negotiation.ts on records built by setupConnection, with an open relay
 * that hands each socket's outgoing message to the other side. The
 * component of conversation.tsx starts a call and dials a peer that never
 * answers.
 */
module Handshake {
  import opened Signals
  import opened Browser
  import opened Negotiation
  import Rtc
  import opened Conversation
  import Dedup

  /**
   * The MASTER side fires negotiation-needed and offers; the SLAVE side,
   * whose own negotiation-needed does nothing, applies the offer and answers;
   * the MASTER applies the answer. Each side sends exactly one message and
   * the SLAVE never offers.
   */
  method OfferAnswer(masterPeerId: string, slavePeerId: string, offerSdp: nat, answerSdp: nat)
    returns (masterLocal: Option<Description>, masterRemote: Option<Description>,
             slaveLocal: Option<Description>, slaveRemote: Option<Description>,
             masterSent: seq<Message>, slaveSent: seq<Message>)
    ensures masterLocal == Some(Description(Offer, offerSdp)) && slaveRemote == masterLocal
    ensures slaveLocal == Some(Description(Answer, answerSdp)) && masterRemote == slaveLocal
    ensures masterSent == [DescriptionMessage(masterPeerId, Description(Offer, offerSdp))]
    ensures slaveSent == [DescriptionMessage(slavePeerId, Description(Answer, answerSdp))]
  {
    // The master's relay socket talks to the slave whose id it was given, and vice versa.
    var masterSocket := new WebSocket();
    var slaveSocket := new WebSocket();
    var master := Rtc.SetupConnection(masterSocket, Master, masterPeerId);
    var slave := Rtc.SetupConnection(slaveSocket, Slave, slavePeerId);
    masterSocket.Establish();
    slaveSocket.Establish();

    OnNegotiationNeeded(slave, slavePeerId, slaveSocket, Some(answerSdp));
    assert slaveSocket.outbox == [];

    OnNegotiationNeeded(master, masterPeerId, masterSocket, Some(offerSdp));
    var offer := masterSocket.outbox[0];
    assert offer == DescriptionMessage(masterPeerId, Description(Offer, offerSdp));

    DescriptionDelivered(masterPeerId, Description(Offer, offerSdp));
    OnMessage(slave, slavePeerId, slaveSocket, Received(offer), true, Some(answerSdp), true);
    var answer := slaveSocket.outbox[0];

    DescriptionDelivered(slavePeerId, Description(Answer, answerSdp));
    OnMessage(master, masterPeerId, masterSocket, Received(answer), true, None, true);

    masterLocal, masterRemote := master.connection.localDescription, master.connection.remoteDescription;
    slaveLocal, slaveRemote := slave.connection.localDescription, slave.connection.remoteDescription;
    masterSent, slaveSent := masterSocket.outbox, slaveSocket.outbox;
  }

  /**
   * A candidate that arrives before any remote description is deferred, not
   * dropped; once the offer has been applied, its retry applies it.
   */
  method EarlyCandidate(peerId: string, c: Candidate, offerSdp: nat, answerSdp: nat)
    returns (deferredBefore: seq<Candidate>, applied: seq<Candidate>, deferredAfter: seq<Candidate>)
    ensures deferredBefore == [c]
    ensures applied == [c] && deferredAfter == []
  {
    var socket := new WebSocket();
    var slave := Rtc.SetupConnection(socket, Slave, peerId);
    socket.Establish();
    var pc := slave.connection;

    CandidateDelivered(peerId, c);
    OnMessage(slave, peerId, socket, Received(CandidateMessage(peerId, Some(c))), true, None, true);
    deferredBefore := pc.deferred;

    DescriptionDelivered(peerId, Description(Offer, offerSdp));
    OnMessage(slave, peerId, socket, Received(DescriptionMessage(peerId, Description(Offer, offerSdp))),
              true, Some(answerSdp), true);
    RetryDeferred(pc, 0, true);
    applied, deferredAfter := pc.candidates, pc.deferred;
  }

  /**
   * A call starts with the camera available: the master socket that the
   * call-start effect creates can open, and it listens for INITIATE and
   * looks up the open offers.
   */
  method CallOpensMaster(storeId: string, deviceId: string)
    returns (state: ReadyState, listener: Handler, onopen: Handler, camera: seq<MediaEvent>)
    ensures state == Open && listener == AcceptInitiate && onopen == FetchOffers
    ensures camera == [OpenLocalCamera]
  {
    var component := new NegotiateConversations(storeId, "interaction", deviceId, true);
    component.StartCall();
    component.CallStartEffect(true);
    var master := component.masterWebSocket;
    master.Establish();
    state, listener, onopen := master.readyState, master.onmessage, master.onopen;
    camera := component.mediaEvents;
  }

  /**
   * A component in a call whose offer lookup returned one offer from another
   * device: that offer's id is the only one to dial, and nothing is
   * registered yet.
   */
  method FetchOneOffer(storeId: string, deviceId: string, offer: Dedup.OfferRecord)
    returns (component: NegotiateConversations)
    requires offer.deviceId != deviceId
    ensures fresh(component) && component.storeId == storeId
    ensures component.callInProgress && component.offers == [offer.connectionId]
    ensures component.connections == map[] && component.activeConnections == 0
    ensures component.timers == {} && component.masterWebSocket == null
  {
    component := new NegotiateConversations(storeId, "interaction", deviceId, true);
    component.StartCall();
    Dedup.SingleOffer(offer, deviceId);
    component.OnOffersFetched(Some([offer]));
  }

  /**
   * The effect on offers dials the fetched offer: one SLAVE record is
   * registered under its id, with its connect timeout armed, and the socket
   * it is supervised with is still connecting and announces the id once open.
   */
  method DialFetchedOffer(storeId: string, deviceId: string, offer: Dedup.OfferRecord)
    returns (component: NegotiateConversations, meta: ConnectionMeta, socket: WebSocket)
    requires offer.deviceId != deviceId
    ensures fresh(component) && fresh(meta) && fresh(meta.connection) && fresh(socket)
    ensures component.storeId == storeId && component.callInProgress
    ensures forall k :: k in component.connections <==> k == offer.connectionId
    ensures component.connections[offer.connectionId] == meta && component.activeConnections == 1
    ensures meta in component.timers && component.masterWebSocket == null
    ensures component.NewRecord(meta, Slave, offer.connectionId) && component.Dialled(meta)
    ensures meta.connection.onconnectionstatechange == Supervise(meta, socket)
  {
    component := FetchOneOffer(storeId, deviceId, offer);
    component.ConnectToOffersEffect();
    assert offer.connectionId in component.offers;
    forall k
      ensures k in component.connections <==> k == offer.connectionId
    {
      assert k in component.offers <==> k == offer.connectionId;
    }
    meta := component.connections[offer.connectionId];
    socket := meta.connection.onconnectionstatechange.socket;
  }

  /**
   * The dialled record's socket opens and announces itself, but no answer
   * comes. The connect timeout removes and closes the record, and the
   * zero-count effect ends the call.
   */
  method UnansweredDial(storeId: string, deviceId: string, offer: Dedup.OfferRecord)
    returns (sent: seq<Message>, registry: map<string, ConnectionMeta>, count: nat,
             peerClosed: bool, inCall: bool)
    requires offer.deviceId != deviceId
    ensures sent == [InitiateMessage(storeId, offer.connectionId)]
    ensures registry == map[] && count == 0
    ensures peerClosed && !inCall
  {
    var component, meta, socket := DialFetchedOffer(storeId, deviceId, offer);
    socket.Establish();
    component.OnSlaveSocketOpen(socket);

    component.OnConnectTimeout(meta);
    component.ActiveConnectionsEffect();
    sent, registry, count := socket.outbox, component.connections, component.activeConnections;
    peerClosed, inCall := meta.connection.connectionState == PeerClosed, component.callInProgress;
  }
}

=== FILE: negotiation.dfy ===
/**
 * The per-connection negotiation handlers (Negotiation.ts): building and
 * routing negotiation messages, the negotiation-needed (offer) handler, the
 * incoming-message handler and the candidate path that retries until a
 * remote description exists. Each asynchronous handler is one atomic step;
 * the browser's verdicts (the SDP that createOffer/createAnswer produce or
 * their rejection, whether a remote description or a candidate is accepted)
 * are parameters.
 */
module Negotiation {
  import opened Signals
  import opened Browser

  /** Which of the two transports sendMessage uses. */
  datatype Transport = ViaSocket | ViaChannel

  /** The routing decision of sendMessage: the relay socket while it is open. */
  function Route(socketState: ReadyState): (t: Transport)
    ensures t == ViaSocket <==> socketState == Open
  {
    if socketState == Open then ViaSocket else ViaChannel
  }

  /**
   * The two outboxes after sendMessage(m): the socket's when the socket is
   * open, otherwise the negotiation channel's, which takes it only when open.
   */
  function Outboxes(socketState: ReadyState, channelState: ReadyState,
                    socketOut: seq<Message>, channelOut: seq<Message>, m: Message)
    : (r: (seq<Message>, seq<Message>))
    ensures socketState == Open ==> r == (socketOut + [m], channelOut)
    ensures socketState != Open ==> r.0 == socketOut
    ensures socketState != Open && channelState == Open ==> r.1 == channelOut + [m]
    ensures socketState != Open && channelState != Open ==> r.1 == channelOut
    ensures |r.0| + |r.1| <= |socketOut| + |channelOut| + 1
  {
    match Route(socketState)
    case ViaSocket => (socketOut + [m], channelOut)
    case ViaChannel => (socketOut, if channelState == Open then channelOut + [m] else channelOut)
  }

  /** The message onIceCandidateHandler sends; `candidate` is None at the end of gathering. */
  function CandidateMessage(connectionId: string, candidate: Option<Candidate>): (m: Message)
    ensures m.action == NEGOTIATE && m.connectionId == connectionId
    ensures m.body.Negotiation? && m.body.description.None? && m.body.candidate == candidate
  {
    Message(NEGOTIATE, connectionId, Negotiation(None, candidate))
  }

  /** The message sendOffer sends: an offer or an answer addressed to the peer. */
  function DescriptionMessage(peerConnectionId: string, description: Description): (m: Message)
    ensures m.action == NEGOTIATE && m.connectionId == peerConnectionId
    ensures m.body.Negotiation? && m.body.description == Some(description)
    ensures m.body.candidate.None?
  {
    Message(NEGOTIATE, peerConnectionId, Negotiation(Some(description), None))
  }

  /** What the incoming-message handler does with a parsed message. */
  datatype Reaction =
    | AnswerOffer(offer: Description)
    | ApplyDescription(description: Description)
    | RelayCandidate(candidate: Candidate)
    | NoReaction

  /**
   * The dispatch of onMessageHandlerNegotiation: a description wins over a
   * candidate; an offer is answered, any other description only applied; a
   * message with neither is ignored.
   */
  function Classify(msg: Incoming): (r: Reaction)
    ensures r.AnswerOffer? <==> msg.description.Some? && msg.description.value.sdpType == Offer
    ensures r.ApplyDescription? <==> msg.description.Some? && msg.description.value.sdpType != Offer
    ensures r.RelayCandidate? <==> msg.description.None? && msg.candidate.Some?
    ensures r.NoReaction? <==> msg.description.None? && msg.candidate.None?
    ensures r.AnswerOffer? ==> Some(r.offer) == msg.description
    ensures r.ApplyDescription? ==> Some(r.description) == msg.description
    ensures r.RelayCandidate? ==> Some(r.candidate) == msg.candidate
  {
    match msg.description
    case Some(d) => if d.sdpType == Offer then AnswerOffer(d) else ApplyDescription(d)
    case None =>
      match msg.candidate
      case Some(c) => RelayCandidate(c)
      case None => NoReaction
  }

  /** The end-of-candidates message (candidate null) makes the receiver do nothing. */
  lemma EndOfCandidatesIgnored(connectionId: string)
    ensures Classify(Received(CandidateMessage(connectionId, None))) == NoReaction
  {
  }

  /** A sent candidate reaches the receiver's candidate path unchanged. */
  lemma CandidateDelivered(connectionId: string, c: Candidate)
    ensures Classify(Received(CandidateMessage(connectionId, Some(c)))) == RelayCandidate(c)
  {
  }

  /** A sent offer is answered by the receiver; a sent answer is only applied. */
  lemma DescriptionDelivered(peerConnectionId: string, d: Description)
    ensures Classify(Received(DescriptionMessage(peerConnectionId, d)))
            == if d.sdpType == Offer then AnswerOffer(d) else ApplyDescription(d)
  {
  }

  /** sendMessage: exactly one transport is chosen; the other outbox is unchanged. */
  method SendMessage(socket: WebSocket, channel: DataChannel, message: Message)
    modifies socket`outbox, channel`outbox
    ensures (socket.outbox, channel.outbox)
            == Outboxes(socket.readyState, channel.readyState,
                        old(socket.outbox), old(channel.outbox), message)
  {
    if socket.readyState == Open {
      socket.Send(message);
    } else {
      var _ := channel.Send(message);
    }
  }

  /** sendOffer: a description message addressed to the peer, through sendMessage. */
  method SendOffer(peerConnectionId: string, description: Description,
                   socket: WebSocket, channel: DataChannel)
    modifies socket`outbox, channel`outbox
    ensures (socket.outbox, channel.outbox)
            == Outboxes(socket.readyState, channel.readyState,
                        old(socket.outbox), old(channel.outbox),
                        DescriptionMessage(peerConnectionId, description))
  {
    SendMessage(socket, channel, DescriptionMessage(peerConnectionId, description));
  }

  /** onIceCandidateHandler: every local candidate (and the final null) is sent at once. */
  method OnIceCandidate(connectionId: string, socket: WebSocket, channel: DataChannel,
                        candidate: Option<Candidate>)
    modifies socket`outbox, channel`outbox
    ensures (socket.outbox, channel.outbox)
            == Outboxes(socket.readyState, channel.readyState,
                        old(socket.outbox), old(channel.outbox),
                        CandidateMessage(connectionId, candidate))
  {
    SendMessage(socket, channel, CandidateMessage(connectionId, candidate));
  }

  /**
   * onNegotiationNeededHandler. `offer` is the SDP that createOffer produced
   * and setLocalDescription accepted, or None when either rejected. Only a
   * MASTER makes an offer; makingOffer is cleared on every path.
   */
  method OnNegotiationNeeded(meta: ConnectionMeta, peerConnectionId: string,
                             socket: WebSocket, offer: Option<nat>)
    modifies meta`makingOffer, meta.connection`localDescription
    modifies socket`outbox, meta.negotiationChannel`outbox
    ensures !meta.makingOffer
    ensures meta.connectionType == Master && offer.Some? ==>
      && meta.connection.localDescription == Some(Description(Offer, offer.value))
      && (socket.outbox, meta.negotiationChannel.outbox)
         == Outboxes(socket.readyState, meta.negotiationChannel.readyState,
                     old(socket.outbox), old(meta.negotiationChannel.outbox),
                     DescriptionMessage(peerConnectionId, Description(Offer, offer.value)))
    ensures meta.connectionType == Slave || offer.None? ==>
      && meta.connection.localDescription == old(meta.connection.localDescription)
      && socket.outbox == old(socket.outbox)
      && meta.negotiationChannel.outbox == old(meta.negotiationChannel.outbox)
  {
    var pc := meta.connection;
    if meta.connectionType == Master {
      meta.makingOffer := true;
      if offer.Some? {
        pc.SetLocalDescription(Description(Offer, offer.value));
        SendOffer(peerConnectionId, pc.localDescription.value, socket, meta.negotiationChannel);
      }
    }
    meta.makingOffer := false;
  }

  /**
   * addIceCandidate: applied at once when a remote description exists,
   * otherwise deferred to a retry timer (the `deferred` queue).
   */
  method AddIceCandidate(connection: PeerConnection, candidate: Candidate, valid: bool)
    modifies connection`candidates, connection`deferred
    ensures connection.remoteDescription.Some? ==>
      && connection.deferred == old(connection.deferred)
      && connection.candidates
         == old(connection.candidates)
            + if valid && connection.connectionState != PeerClosed then [candidate] else []
    ensures connection.remoteDescription.None? ==>
      && connection.candidates == old(connection.candidates)
      && connection.deferred == old(connection.deferred) + [candidate]
  {
    if connection.remoteDescription.Some? {
      var _ := connection.AddIceCandidate(candidate, valid);
    } else {
      connection.deferred := connection.deferred + [candidate];
    }
  }

  /**
   * The retry timer of the i-th deferred candidate fires: addIceCandidate runs
   * again. Without a remote description the candidate is re-queued (never
   * dropped, never cancelled, even on a closed connection); with one, it leaves
   * the queue, which therefore shrinks by one.
   */
  method RetryDeferred(connection: PeerConnection, i: nat, valid: bool)
    requires i < |connection.deferred|
    modifies connection`candidates, connection`deferred
    ensures multiset(connection.deferred) + multiset(connection.candidates)
            <= multiset(old(connection.deferred)) + multiset(old(connection.candidates))
    ensures connection.remoteDescription.None? ==>
      && connection.candidates == old(connection.candidates)
      && connection.deferred
         == old(connection.deferred[..i] + connection.deferred[i + 1..]) + [old(connection.deferred[i])]
    ensures connection.remoteDescription.Some? ==>
      && connection.deferred == old(connection.deferred[..i] + connection.deferred[i + 1..])
      && |connection.deferred| == |old(connection.deferred)| - 1
      && connection.candidates
         == old(connection.candidates)
            + if valid && connection.connectionState != PeerClosed
              then [old(connection.deferred[i])] else []
  {
    var c := connection.deferred[i];
    var rest := connection.deferred[..i] + connection.deferred[i + 1..];
    assert connection.deferred == connection.deferred[..i] + [c] + connection.deferred[i + 1..];
    connection.deferred := rest;
    AddIceCandidate(connection, c, valid);
  }

  /**
   * Once a remote description exists, the pending retry timers fire one after
   * another: every deferred candidate is applied, in the order it arrived,
   * and the queue empties (here the browser accepts each candidate).
   */
  method DrainDeferred(connection: PeerConnection)
    requires connection.remoteDescription.Some?
    requires connection.connectionState != PeerClosed
    modifies connection`candidates, connection`deferred
    ensures connection.deferred == []
    ensures connection.candidates == old(connection.candidates) + old(connection.deferred)
  {
    while connection.deferred != []
      invariant connection.candidates + connection.deferred
                == old(connection.candidates) + old(connection.deferred)
      decreases |connection.deferred|
    {
      ghost var d := connection.deferred;
      RetryDeferred(connection, 0, true);
      assert d == [d[0]] + d[1..];
    }
    assert connection.candidates + [] == connection.candidates;
  }

  /**
   * onMessageHandlerNegotiation. `accepted` is whether setRemoteDescription
   * accepts the incoming description; `answer` is the SDP that createAnswer
   * produced and setLocalDescription accepted, or None when either rejected;
   * `valid` is whether an incoming candidate is accepted. Rejections are
   * caught and only logged, so they stop the handler and change nothing else.
   */
  method OnMessage(meta: ConnectionMeta, peerConnectionId: string, socket: WebSocket,
                   msg: Incoming, accepted: bool, answer: Option<nat>, valid: bool)
    modifies meta.connection`remoteDescription, meta.connection`localDescription
    modifies meta.connection`candidates, meta.connection`deferred
    modifies socket`outbox, meta.negotiationChannel`outbox
    ensures var pc := meta.connection;
      match Classify(msg)
      case AnswerOffer(d) =>
        && pc.remoteDescription == (if accepted then Some(d) else old(pc.remoteDescription))
        && pc.candidates == old(pc.candidates) && pc.deferred == old(pc.deferred)
        && (if accepted && answer.Some? then
              && pc.localDescription == Some(Description(Answer, answer.value))
              && (socket.outbox, meta.negotiationChannel.outbox)
                 == Outboxes(socket.readyState, meta.negotiationChannel.readyState,
                             old(socket.outbox), old(meta.negotiationChannel.outbox),
                             DescriptionMessage(peerConnectionId, Description(Answer, answer.value)))
            else
              && pc.localDescription == old(pc.localDescription)
              && socket.outbox == old(socket.outbox)
              && meta.negotiationChannel.outbox == old(meta.negotiationChannel.outbox))
      case ApplyDescription(d) =>
        && pc.remoteDescription == (if accepted then Some(d) else old(pc.remoteDescription))
        && pc.localDescription == old(pc.localDescription)
        && pc.candidates == old(pc.candidates) && pc.deferred == old(pc.deferred)
        && socket.outbox == old(socket.outbox)
        && meta.negotiationChannel.outbox == old(meta.negotiationChannel.outbox)
      case RelayCandidate(c) =>
        && pc.remoteDescription == old(pc.remoteDescription)
        && pc.localDescription == old(pc.localDescription)
        && socket.outbox == old(socket.outbox)
        && meta.negotiationChannel.outbox == old(meta.negotiationChannel.outbox)
        && (if pc.remoteDescription.Some? then
              && pc.deferred == old(pc.deferred)
              && pc.candidates == old(pc.candidates)
                 + if valid && pc.connectionState != PeerClosed then [c] else []
            else
              && pc.candidates == old(pc.candidates)
              && pc.deferred == old(pc.deferred) + [c])
      case NoReaction =>
        && pc.remoteDescription == old(pc.remoteDescription)
        && pc.localDescription == old(pc.localDescription)
        && pc.candidates == old(pc.candidates) && pc.deferred == old(pc.deferred)
        && socket.outbox == old(socket.outbox)
        && meta.negotiationChannel.outbox == old(meta.negotiationChannel.outbox)
  {
    var pc := meta.connection;
    match Classify(msg)
    case AnswerOffer(d) =>
      var ok := pc.SetRemoteDescription(d, accepted);
      if ok && answer.Some? {
        pc.SetLocalDescription(Description(Answer, answer.value));
        SendOffer(peerConnectionId, pc.localDescription.value, socket, meta.negotiationChannel);
      }
    case ApplyDescription(d) =>
      var _ := pc.SetRemoteDescription(d, accepted);
    case RelayCandidate(c) =>
      AddIceCandidate(pc, c, valid);
    case NoReaction =>
  }
}

=== FILE: rtc.dfy ===
/**
 * Construction of a connection record and the wiring of its event handlers
 * (RtcConnection.ts). The ICE server configuration is not modelled.
 */
module Rtc {
  import opened Signals
  import opened Browser

  /** Fixed ids of the two pre-negotiated data channels. */
  const COMMANDS_CHANNEL_ID: nat := 0
  const NEGOTIATION_CHANNEL_ID: nat := 2

  /**
   * createRTCConnection: a new peer connection with two pre-negotiated,
   * distinct data channels, id 0 for commands and id 2 for negotiation.
   */
  method CreateRtcConnection()
    returns (localConnection: PeerConnection, commandsChannel: DataChannel,
             negotiationChannel: DataChannel)
    ensures fresh(localConnection) && fresh(commandsChannel) && fresh(negotiationChannel)
    ensures commandsChannel != negotiationChannel
    ensures commandsChannel.channelLabel == "commandChannel"
    ensures commandsChannel.id == COMMANDS_CHANNEL_ID && commandsChannel.negotiated
    ensures negotiationChannel.channelLabel == "negotiationChannel"
    ensures negotiationChannel.id == NEGOTIATION_CHANNEL_ID && negotiationChannel.negotiated
    ensures commandsChannel.id != negotiationChannel.id
    ensures localConnection.localDescription.None? && localConnection.remoteDescription.None?
    ensures localConnection.candidates == [] && localConnection.deferred == []
    ensures localConnection.senders == [] && localConnection.connectionState == PeerNew
    ensures localConnection.onicecandidate == Unset && localConnection.onnegotiationneeded == Unset
    ensures localConnection.onconnectionstatechange == Unset && localConnection.ontrack == Unset
    ensures commandsChannel.onmessage == Unset && negotiationChannel.onmessage == Unset
    ensures commandsChannel.outbox == [] && negotiationChannel.outbox == []
    ensures commandsChannel.readyState == Connecting && negotiationChannel.readyState == Connecting
  {
    localConnection := new PeerConnection();
    commandsChannel := localConnection.CreateDataChannel("commandChannel", COMMANDS_CHANNEL_ID);
    negotiationChannel := localConnection.CreateDataChannel("negotiationChannel", NEGOTIATION_CHANNEL_ID);
  }

  /**
   * createLocalConnection: a fresh ConnectionMeta for `connectionId` with the
   * given role, a fresh peer connection and channels, and every flag false.
   */
  method CreateLocalConnection(connectionId: string, connectionType: Role)
    returns (meta: ConnectionMeta)
    ensures fresh(meta) && fresh(meta.connection)
    ensures fresh(meta.commandsChannel) && fresh(meta.negotiationChannel)
    ensures meta.connectionType == connectionType && meta.connectionId == connectionId
    ensures !meta.makingOffer && !meta.ignoreOffer && !meta.isSettingRemoteAnswerPending
    ensures meta.commandsChannel != meta.negotiationChannel
    ensures meta.commandsChannel.id == COMMANDS_CHANNEL_ID
    ensures meta.negotiationChannel.id == NEGOTIATION_CHANNEL_ID
    ensures meta.connection.localDescription.None? && meta.connection.remoteDescription.None?
    ensures meta.connection.candidates == [] && meta.connection.deferred == []
    ensures meta.connection.senders == [] && meta.connection.connectionState == PeerNew
    ensures meta.connection.onicecandidate == Unset && meta.connection.onnegotiationneeded == Unset
    ensures meta.connection.onconnectionstatechange == Unset && meta.connection.ontrack == Unset
    ensures meta.commandsChannel.onmessage == Unset && meta.negotiationChannel.onmessage == Unset
    ensures meta.commandsChannel.outbox == [] && meta.negotiationChannel.outbox == []
    ensures meta.commandsChannel.readyState == Connecting
    ensures meta.negotiationChannel.readyState == Connecting
  {
    var localConnection, commandsChannel, negotiationChannel := CreateRtcConnection();
    meta := new ConnectionMeta(connectionType, connectionId, localConnection,
                               commandsChannel, negotiationChannel);
  }

  /**
   * setupConnection: builds the record and installs the negotiation handlers.
   * The socket's previous onmessage is replaced, so the socket and the
   * negotiation channel dispatch to the same negotiation handler; candidate
   * and negotiation-needed events go to handlers bound to the same peer id
   * and socket.
   */
  method SetupConnection(webSocket: WebSocket, connectionType: Role, peerConnectionId: string)
    returns (meta: ConnectionMeta)
    modifies webSocket`onmessage
    ensures fresh(meta) && fresh(meta.connection)
    ensures fresh(meta.commandsChannel) && fresh(meta.negotiationChannel)
    ensures meta.connectionType == connectionType && meta.connectionId == peerConnectionId
    ensures !meta.makingOffer && !meta.ignoreOffer && !meta.isSettingRemoteAnswerPending
    ensures meta.commandsChannel != meta.negotiationChannel
    ensures meta.commandsChannel.id == COMMANDS_CHANNEL_ID
    ensures meta.negotiationChannel.id == NEGOTIATION_CHANNEL_ID
    ensures webSocket.onmessage == NegotiationMessages(meta, peerConnectionId, webSocket)
    ensures meta.negotiationChannel.onmessage == webSocket.onmessage
    ensures meta.connection.onicecandidate
            == IceCandidates(peerConnectionId, webSocket, meta.negotiationChannel)
    ensures meta.connection.onnegotiationneeded
            == NegotiationNeeded(meta, peerConnectionId, webSocket)
    ensures meta.connection.onconnectionstatechange == Unset && meta.connection.ontrack == Unset
    ensures meta.commandsChannel.onmessage == Unset
    ensures meta.connection.localDescription.None? && meta.connection.remoteDescription.None?
    ensures meta.connection.candidates == [] && meta.connection.deferred == []
    ensures meta.connection.senders == [] && meta.connection.connectionState == PeerNew
    ensures meta.commandsChannel.outbox == [] && meta.negotiationChannel.outbox == []
    ensures meta.commandsChannel.readyState == Connecting
    ensures meta.negotiationChannel.readyState == Connecting
  {
    meta := CreateLocalConnection(peerConnectionId, connectionType);
    var localConnection := meta.connection;
    webSocket.onmessage := NegotiationMessages(meta, peerConnectionId, webSocket);
    localConnection.onicecandidate := IceCandidates(peerConnectionId, webSocket, meta.negotiationChannel);
    localConnection.onnegotiationneeded := NegotiationNeeded(meta, peerConnectionId, webSocket);
    meta.negotiationChannel.onmessage := NegotiationMessages(meta, peerConnectionId, webSocket);
  }
}

=== FILE: signals.dfy ===
/**
 * Value types shared by the negotiation core: roles, session descriptions,
 * candidates, the signaling messages that travel over the relay socket or the
 * negotiation data channel, and the states of the browser objects involved.
 * JSON encoding is replaced by tagged datatypes; SDP text and candidate
 * contents are abstract tokens.
 */
module Signals {

  datatype Option<T> = None | Some(value: T)

  /** ConnectionType: the side that receives INITIATE is MASTER and makes offers. */
  datatype Role = Master | Slave

  /** RTCSdpType. */
  datatype SdpType = Offer | Answer | PrAnswer | Rollback

  /** A session description; `sdp` stands for the opaque SDP text. */
  datatype Description = Description(sdpType: SdpType, sdp: nat)

  /** An ICE candidate, opaque. */
  datatype Candidate = Candidate(token: nat)

  /** MessageType of the relay control messages. */
  datatype MessageType = Initiate | Update

  /** The action every outgoing relay message carries. */
  const NEGOTIATE: string := "negotiate"

  /**
   * What an outgoing message carries besides `action` and `connectionId`:
   * a negotiation payload (a description, or a candidate that may be null
   * at the end of gathering) or an INITIATE/UPDATE control message.
   */
  datatype Body =
    | Negotiation(description: Option<Description>, candidate: Option<Candidate>)
    | Control(storeId: string, messageType: MessageType)

  /** An outgoing message as it is put on a socket or a data channel. */
  datatype Message = Message(action: string, connectionId: string, body: Body)

  /**
   * The fields of an incoming JSON message that the core reads: the
   * negotiation handler looks at `description` and `candidate`, the master
   * socket's handler at `type` and `senderConnectionId`. Absent fields are None.
   */
  datatype Incoming = Incoming(
    description: Option<Description>,
    candidate: Option<Candidate>,
    messageType: Option<MessageType>,
    senderConnectionId: string)

  /** WebSocket.readyState and RTCDataChannel.readyState share these four values. */
  datatype ReadyState = Connecting | Open | Closing | Closed

  /** RTCPeerConnection.connectionState. */
  datatype PeerState =
    PeerNew | PeerConnecting | PeerConnected | PeerDisconnected | PeerFailed | PeerClosed

  /** A string arriving on the command channel. */
  datatype Command = VideoOn | VideoOff | OtherCommand(text: string)

  /** A local media track (opaque). */
  datatype Track = Track(id: nat)

  /**
   * How a message that was sent by `JSON.stringify` is seen by the handler that
   * parses it on the other end: the negotiation fields survive, nothing else
   * is read.
   */
  function Received(m: Message): (r: Incoming)
    requires m.body.Negotiation?
    ensures r.description == m.body.description && r.candidate == m.body.candidate
    ensures r.messageType.None?
  {
    Incoming(m.body.description, m.body.candidate, None, "")
  }
}
